=== FILE: README.md ===
# Movie Finder core, modelled in Dafny

Movie Finder is a small web application. It searches an upstream movie database (TMDB), shows
details, and keeps per-session favourites without accounts. This project models its core
over immutable values. Every operation is a pure Dafny function, except the favourites listing
(`FavoritesStore.ValuesOf`, `FavoritesStore.List`, `FavoritesService.ListFavorites`). These are
methods, because copying the bucket's values is a loop:

- **Favourites store** (`favorites_store.dfy`, module `FavoritesStore`). A map from session id
  to a bucket of favourites keyed by id. A bucket expires seven days after its last use and
  holds at most 200 ids. Every operation takes the store, the session id and the clock
  reading `now`. It returns a `Step` that holds the new store and a `Result`.
- **Listing order** (`favorites_order.dfy`, `FavoritesOrder`). The listing comparator sorts by
  lower-cased title, with null titles last, and then by id. It rests on the generic stable
  insertion sort in `sorting.dfy` (`Sorting`).
- **Favourites service** (`favorites_service.dfy`, `FavoritesService`). It validates the
  request, then checks the session, then hands over to the store.
- **Movie service** (`movie_service.dfy`, `MovieService`). Search and details each sit behind
  their own 60-second cache. Both use one get-or-fetch step. Upstream is a function parameter,
  and every operation reports the requests it made upstream.
- **API client helpers** (`api_client.dfy`, `ApiClient`):
  - the query check and page clamp;
  - mapping of the search and details bodies: year, poster URL, blank-to-null, genre filter,
    and the top-five cast in billing order.
- **Data holders** (`dto.dfy`, `Dto`): the DTOs and the normalising `PageResponseDTO`
  constructor.
- **Settings** (`config.dfy`, `Config`): `MovieApiProperties` with trailing-slash trimming,
  the default timeout and the key-free `toString`.
- **Browser script** (`frontend.dfy`, `Frontend`): HTML escaping, the pager arithmetic, and the
  favourites map rebuilt from the list response.
- **Shared parts**:
  - `text.dfy` (`Text`): the Java string operations the code relies on. These are trim,
    isBlank/hasText, lower-casing, compareTo, length and substring in UTF-16 code units,
    and decimal rendering of integers.
  - `wrappers.dfy`: `Option`, `Result`, and the error kinds.

Java `null` is `None`. Exceptions are `Failure` values. The error kinds are:

- `BadRequest`, with a reason for each message;
- `MissingSession`, which is Java's IllegalStateException;
- `NullArgument`, which is what `Objects.requireNonNull` throws on null;
- `NotFound` and `ExternalApi`;
- `NullDereference`, a NullPointerException nothing catches, which ends as a server error.

## Model

| member | source | states |
|---|---|---|
| FavoritesStore.GetOrInitBucket | src/main/java/com/project/movie_finder/service/SessionFavoritesStore.java:66-81 | A missing or blank session id is refused as a missing session, and no other input is. Otherwise the bucket is the live one when there is one; an absent or expired bucket is replaced by an empty one expiring seven days from now. Its favourites are what the session could see. |
| FavoritesStore.NewBucket | src/main/java/com/project/movie_finder/service/SessionFavoritesStore.java:95-97 | A new bucket is empty and expires seven days after `now`. |
| FavoritesStore.Touch | src/main/java/com/project/movie_finder/service/SessionFavoritesStore.java:99-102 | Touching keeps the favourites and moves the expiry to now + 604800000, which is strictly in the future. |
| FavoritesStore.CopyShallow | src/main/java/com/project/movie_finder/service/SessionFavoritesStore.java:87-89 | The stored copy equals the favourite passed in. |
| FavoritesStore.Add | src/main/java/com/project/movie_finder/service/SessionFavoritesStore.java:42-55 | Checks run in order. A null favourite fails, and so does a null or non-positive id, with the store untouched. A missing session fails next. Then the bucket is resolved and refreshed. A new id in a bucket already holding 200 is refused with the favourites unchanged; any other id is upserted. |
| FavoritesStore.Remove | src/main/java/com/project/movie_finder/service/SessionFavoritesStore.java:57-64 | A non-positive id fails with the store untouched, and a missing session fails next. Otherwise the refreshed bucket holds the visible favourites minus that id. |
| FavoritesStore.ValuesOf | src/main/java/com/project/movie_finder/service/SessionFavoritesStore.java:35 | Copying the bucket's values yields each stored favourite exactly once and nothing else, whatever the key order. |
| FavoritesStore.List | src/main/java/com/project/movie_finder/service/SessionFavoritesStore.java:32-40 | A missing session fails. Otherwise the bucket is resolved and refreshed, and the result holds each visible favourite exactly once, sorted by the listing order. The store it leaves keeps the invariant (at most 200 entries per bucket, each under its own positive id), so a listing can be followed by any other operation. |
| FavoritesStore.ListingDeterministic | src/main/java/com/project/movie_finder/service/SessionFavoritesStore.java:35-38 | Any two sorted sequences holding each favourite of a bucket once are equal, so the listing does not depend on the map's iteration order. |
| FavoritesStore.AddKeepsInvariant | src/main/java/com/project/movie_finder/service/SessionFavoritesStore.java:47-54 | After any add, every bucket still has at most 200 entries, each filed under its own positive id. |
| FavoritesStore.RemoveKeepsInvariant | src/main/java/com/project/movie_finder/service/SessionFavoritesStore.java:57-64 | After any remove, every bucket still has at most 200 entries, each filed under its own positive id. |
| FavoritesStore.AddUpsert | src/main/java/com/project/movie_finder/service/SessionFavoritesStore.java:47-54 | An add succeeds exactly when the id is already present or there is room. An existing id is overwritten with the size unchanged; a new id grows the size by one. A refusal is a limit error with the favourites unchanged, and the size never passes 200. |
| FavoritesStore.RemoveDeletesOnly | src/main/java/com/project/movie_finder/service/SessionFavoritesStore.java:57-64 | The removed id is gone, every other entry is kept with its value, and removing an absent id changes nothing. |
| FavoritesStore.ExpiredBucketStartsEmpty | src/main/java/com/project/movie_finder/service/SessionFavoritesStore.java:71-80 | An add into an absent or expired bucket succeeds, and the session then holds only the new favourite; the old contents are discarded. |
| FavoritesStore.RefreshedLiveForTtl | src/main/java/com/project/movie_finder/service/SessionFavoritesStore.java:95-102 | After an operation the session's expiry is now + 604800000. Reads before then see the same favourites, and reads from then on see none. |
| FavoritesStore.OtherSessionsUntouched | src/main/java/com/project/movie_finder/service/SessionFavoritesStore.java:71-80 | Add, remove and list leave the bucket of every other session id exactly as it was. |
| FavoritesOrder.NullSafeLower | src/main/java/com/project/movie_finder/service/SessionFavoritesStore.java:83-85 | Null stays null; a title becomes its lower-cased form. |
| FavoritesOrder.CompareFavorites | src/main/java/com/project/movie_finder/service/SessionFavoritesStore.java:36-38 | Lower-cased titles sort ascending by compareTo, and a titled favourite comes before an untitled one. Equal lower-cased titles fall back to ids, ascending, with a null id last. Two favourites tie exactly when their lower-cased titles and their ids are equal. |
| FavoritesOrder.ListingIsTotalPreorder | src/main/java/com/project/movie_finder/service/SessionFavoritesStore.java:36-38 | The title-then-id comparator with nulls last is total and transitive, so it is a valid sort order. |
| FavoritesOrder.ListingTieSameId | src/main/java/com/project/movie_finder/service/SessionFavoritesStore.java:36-38 | Favourites the comparator ties have equal lower-cased titles and equal ids. |
| FavoritesOrder.ListingExample | src/main/java/com/project/movie_finder/service/SessionFavoritesStore.java:36-38 | "apple" comes strictly before "Banana", which comes strictly before an untitled favourite. |
| Sorting.SortBySorted | src/main/java/com/project/movie_finder/service/SessionFavoritesStore.java:36 | Sorting by a total preorder yields a sequence sorted by it, holding the same elements. |
| Sorting.SortByStable | src/main/java/com/project/movie_finder/client/MovieApiClient.java:131 | The sort is stable: the elements the comparator ties come out in their input order. |
| Sorting.SortedUnique | src/main/java/com/project/movie_finder/service/SessionFavoritesStore.java:36-38 | Two sorted permutations of the same elements are equal when the comparator ties no two distinct elements. |
| FavoritesService.CurrentSessionId | src/main/java/com/project/movie_finder/service/FavoritesService.java:54-60 | Succeeds, with the session id itself, exactly when the id is present and not blank; otherwise fails with a missing session. |
| FavoritesService.AddFavorite | src/main/java/com/project/movie_finder/service/FavoritesService.java:35-44 | A null body is a bad request, and so is a null or non-positive id; both are checked before the session. A missing session fails next. Otherwise the result is the store's add. |
| FavoritesService.RemoveFavorite | src/main/java/com/project/movie_finder/service/FavoritesService.java:46-52 | A non-positive id is a bad request before the session is checked; a missing session fails next; otherwise the result is the store's remove. |
| FavoritesService.ListFavorites | src/main/java/com/project/movie_finder/service/FavoritesService.java:30-33 | A missing session fails. Otherwise the session's favourites come back once each, sorted, with the bucket refreshed. The store it leaves keeps the bucket invariant. |
| FavoritesService.AddMatchesStore | src/main/java/com/project/movie_finder/service/FavoritesService.java:35-44 | For a non-null favourite the service's add equals the store's on every input. A null body is a bad request at the service and a null-argument error at the store. |
| FavoritesService.RemoveMatchesStore | src/main/java/com/project/movie_finder/service/FavoritesService.java:46-52 | The service's remove equals the store's on every input. |
| FavoritesService.InvalidBeforeSession | src/main/java/com/project/movie_finder/service/FavoritesService.java:35-51 | Invalid input without a session is a bad request, never a missing session, and leaves the store unchanged. |
| MovieService.GetOrFetch | src/main/java/com/project/movie_finder/service/MovieService.java:44-52 | A live entry is returned as stored, with no request and no change. Otherwise exactly one request is made. A success is stored until now + 60000 and returned; a failure is passed on and nothing is stored. |
| MovieService.GetOrFetchFootprint | src/main/java/com/project/movie_finder/service/MovieService.java:44-52 | A lookup makes at most one request, the one it was given. Every other key is unchanged. After a success the key's entry is live and holds the answer. |
| MovieService.RepeatWithinTtlHits | src/main/java/com/project/movie_finder/service/MovieService.java:44-47 | Repeating a successful lookup before its entry lapses returns the same value, with no request and an unchanged cache. |
| MovieService.IsExpired | src/main/java/com/project/movie_finder/service/MovieService.java:71-73 | An entry is live exactly when it is present and now is strictly before its expiry; at the expiry instant it is already expired. |
| MovieService.ExpiredAfterTtl | src/main/java/com/project/movie_finder/service/MovieService.java:71-73 | Once 60 seconds have passed since a fetch, the next lookup makes exactly one request again. |
| MovieService.FailureNotCached | src/main/java/com/project/movie_finder/service/MovieService.java:49-51 | A failed fetch leaves the cache unchanged, so the next lookup asks upstream again. |
| MovieService.TrimmedQuery | src/main/java/com/project/movie_finder/service/MovieService.java:36 | Null becomes the empty string; anything else is trimmed. |
| MovieService.EffectivePage | src/main/java/com/project/movie_finder/service/MovieService.java:40 | The page used is at least 1: pages below 1 become 1, and other pages are kept. |
| MovieService.Search | src/main/java/com/project/movie_finder/service/MovieService.java:35-53 | A query that is blank, or whose String.length (UTF-16 code units) is below two once trimmed, is refused, with no request and no cache change. Otherwise the result is the cached lookup under the lower-cased key; upstream gets the trimmed, not lower-cased, query. The details cache is never touched. |
| MovieService.GetDetails | src/main/java/com/project/movie_finder/service/MovieService.java:55-69 | A non-positive id is refused with no request and no cache change. Otherwise the result is the cached lookup in the id-keyed cache. The search cache is never touched. |
| MovieService.SearchKey | src/main/java/com/project/movie_finder/service/MovieService.java:42 | The key starts with the lower-cased query, then "::", and after that holds only digits for a non-negative page. |
| MovieService.SearchKeyInjective | src/main/java/com/project/movie_finder/service/MovieService.java:42 | Equal cache keys mean equal lower-cased queries and equal pages. The page is read back from the digits after the last ':'. |
| MovieService.SameEntryIff | src/main/java/com/project/movie_finder/service/MovieService.java:42 | Two searches share a cache entry exactly when their trimmed queries agree up to case and their effective pages agree. |
| MovieService.SearchRepeatHits | src/main/java/com/project/movie_finder/service/MovieService.java:42-47 | A search repeated within 60 seconds of a successful fetch is served from the cache with no request. This holds even when the repeat differs in case, in surrounding whitespace, or in an out-of-range page. |
| MovieService.SurrogatePairQueryAccepted | src/main/java/com/project/movie_finder/service/MovieService.java:36-39 | A one-character query outside the Basic Multilingual Plane has String.length 2, so it is not refused as short. |
| MovieService.ServiceCheckImpliesClientCheck | src/main/java/com/project/movie_finder/service/MovieService.java:36-40 | Whatever the service accepts passes the client's own query check unchanged. |
| ApiClient.SafeString | src/main/java/com/project/movie_finder/client/MovieApiClient.java:170-172 | Null or blank input becomes null; any other string is kept as it is. |
| ApiClient.ToYear | src/main/java/com/project/movie_finder/client/MovieApiClient.java:165-168 | Null, blank and inputs under four UTF-16 code units give null. Otherwise the result is the longest prefix of the date that fits in four code units, which is three or four units long. |
| ApiClient.ToYearOfBmp | src/main/java/com/project/movie_finder/client/MovieApiClient.java:165-168 | When the first four characters are all in the Basic Multilingual Plane, the year is exactly those four characters. |
| ApiClient.ToYearCountsCodeUnits | src/main/java/com/project/movie_finder/client/MovieApiClient.java:165-168 | Two characters outside the Basic Multilingual Plane are four code units, so they make a year and are kept whole. |
| ApiClient.ToYearOfIsoDate | src/main/java/com/project/movie_finder/client/MovieApiClient.java:165-168 | "2010-07-16" gives "2010". |
| ApiClient.LtrimSlash | src/main/java/com/project/movie_finder/client/MovieApiClient.java:160-163 | One leading '/' is dropped if there is one, and nothing else changes. |
| ApiClient.ToPosterUrl | src/main/java/com/project/movie_finder/client/MovieApiClient.java:153-158 | The result is null exactly when the path or the image base is blank. Otherwise it is the base without a trailing '/', one '/', then the path without one leading '/'. |
| ApiClient.SearchRequest | src/main/java/com/project/movie_finder/client/MovieApiClient.java:53-58 | Blank queries, and queries whose trimmed String.length (UTF-16 code units) is below two, are refused before any request. Otherwise the request is the trimmed query and max(1, page). |
| ApiClient.MapSearchBody | src/main/java/com/project/movie_finder/client/MovieApiClient.java:76-92 | A null body or null results give an empty page at `p` with total 0. A null hit fails with an uncaught null dereference, exactly when the results hold one. Otherwise there is one item per hit, in upstream order. The page is the upstream page raised to at least 1, or `p` when upstream gives none. The total is the upstream total raised to at least 0, or the hit count when upstream gives none. |
| ApiClient.MapHitsExact | src/main/java/com/project/movie_finder/client/MovieApiClient.java:80-88 | The hit-by-hit loop throws exactly when some hit is null; otherwise it builds one item per hit, in order. |
| ApiClient.MapSearchBodyIsLoop | src/main/java/com/project/movie_finder/client/MovieApiClient.java:76-92 | The mapped page fails exactly when the loop throws, and otherwise lists exactly the items the loop built. |
| ApiClient.ToListItem | src/main/java/com/project/movie_finder/client/MovieApiClient.java:82-87 | A hit keeps its id. Its title, year and poster URL are the blank-to-null title, the year of its release date and its poster URL. So the title is kept exactly when it has text, the year is a prefix of the release date, and a poster URL exists exactly when both the path and the image base have text. |
| ApiClient.SearchMovies | src/main/java/com/project/movie_finder/client/MovieApiClient.java:53-97 | An invalid query is refused with no request. An upstream failure is passed on. Otherwise the result is the mapped body, including its failure on a null hit. |
| ApiClient.GenreNames | src/main/java/com/project/movie_finder/client/MovieApiClient.java:118-125 | Every kept genre name has text, and no more names are kept than genres were given. |
| ApiClient.GenreNamesAppend | src/main/java/com/project/movie_finder/client/MovieApiClient.java:118-125 | The filter keeps order: filtering a concatenation concatenates the filtered parts. |
| ApiClient.GenreNamesExact | src/main/java/com/project/movie_finder/client/MovieApiClient.java:118-125 | A name is kept exactly when some non-null genre with a non-blank name carries it. |
| ApiClient.CreditedCast | src/main/java/com/project/movie_finder/client/MovieApiClient.java:130 | Only present cast members with non-blank names are kept, and each comes from the input. |
| ApiClient.CreditedCastExact | src/main/java/com/project/movie_finder/client/MovieApiClient.java:130 | A member is kept exactly when the raw cast holds it, present and named with text. |
| ApiClient.CreditedCastAppend | src/main/java/com/project/movie_finder/client/MovieApiClient.java:130 | The filter keeps upstream order: filtering a concatenation concatenates the filtered parts. |
| ApiClient.BillingOrder | src/main/java/com/project/movie_finder/client/MovieApiClient.java:131 | A member's own order is used when it has one. A missing order is exactly Integer.MAX_VALUE: it ties with an order of 2147483647 and sorts no earlier than any order a Java int can hold. |
| ApiClient.Ranked | src/main/java/com/project/movie_finder/client/MovieApiClient.java:129-131 | The ranking is a permutation of the credited cast, all named. |
| ApiClient.RankedIsStableSort | src/main/java/com/project/movie_finder/client/MovieApiClient.java:129-131 | The ranking is in billing order, with a missing order counting as Integer.MAX_VALUE, and members with equal order keep their upstream order. |
| ApiClient.TopCast | src/main/java/com/project/movie_finder/client/MovieApiClient.java:127-134 | At most five names, all non-blank. They are exactly the first five of the ranking, and none when credits or cast are null. |
| ApiClient.MapDetails | src/main/java/com/project/movie_finder/client/MovieApiClient.java:114-146 | A null body is an upstream error. Otherwise each field is the normalised upstream field. |
| ApiClient.GetMovieDetails | src/main/java/com/project/movie_finder/client/MovieApiClient.java:99-151 | An upstream failure propagates; otherwise the details are the mapped body. |
| Dto.NewPageResponse | src/main/java/com/project/movie_finder/dto/PageResponseDTO.java:21-25 | Null items become empty, and the page is at least 1 and the total at least 0. Values already in range are kept. |
| Dto.NewPageResponseIdempotent | src/main/java/com/project/movie_finder/dto/PageResponseDTO.java:21-37 | Normalising what the getters return gives the same response. |
| Config.Defaults | src/main/java/com/project/movie_finder/config/MovieApiProperties.java:20-23 | Unset properties have no URLs and no key, and a 3000 ms timeout. |
| Config.TrimTrailingSlash | src/main/java/com/project/movie_finder/config/MovieApiProperties.java:57-60 | Null stays null. The result is the input or the input minus one final '/'. It is shorter exactly when the input ends with '/'. |
| Config.TrimTrailingSlashRemovesOnlyOne | src/main/java/com/project/movie_finder/config/MovieApiProperties.java:57-60 | "a//" becomes "a/". |
| Config.SetBaseUrl | src/main/java/com/project/movie_finder/config/MovieApiProperties.java:29-31 | The stored base URL is the trimmed argument; the other settings are unchanged. |
| Config.SetImageBaseUrl | src/main/java/com/project/movie_finder/config/MovieApiProperties.java:37-39 | The stored image base URL is the trimmed argument; the other settings are unchanged. |
| Config.ToString | src/main/java/com/project/movie_finder/config/MovieApiProperties.java:62-69 | The rendering opens with the class name and the base URL (or "null"), and closes with the timeout in decimal and '}'. |
| Config.ToStringOmitsKey | src/main/java/com/project/movie_finder/config/MovieApiProperties.java:62-69 | The rendering is the same whatever the key, so the key never appears in it. |
| Frontend.EscapeHtml | src/main/resources/static/app.js:43-49 | Null or undefined gives the empty string. |
| Frontend.EscapeHtmlIsEscapeEach | src/main/resources/static/app.js:43-49 | The five replaceAll passes equal escaping each character on its own, in one pass. |
| Frontend.EscapeHtmlSafe | src/main/resources/static/app.js:43-49 | The output has no '<', '>', '"' or single quote, and every '&' starts one of the five entities. |
| Frontend.EscapeHtmlRoundTrip | src/main/resources/static/app.js:43-49 | Reading the entities back gives the original text, so escaping loses nothing. |
| Frontend.EscapeAttr | src/main/resources/static/app.js:50 | escapeAttr returns exactly what escapeHtml returns. |
| Frontend.CeilDiv | src/main/resources/static/app.js:78 | The result r is the integer ceiling of a / b: (r - 1) * b < a <= r * b. |
| Frontend.UpdatePager | src/main/resources/static/app.js:72-85 | Previous is enabled exactly past page 1. Without a known total or without items, next is enabled exactly when the last response had items. |
| Frontend.NextWhileItemsRemain | src/main/resources/static/app.js:76-79 | With a known total and items, next is enabled exactly when page × (last item count) < total. |
| Frontend.UpdatePagerByPageSize | src/main/resources/static/app.js:76-79 | Corrected pager: with a known total, next is enabled exactly when page × page size < total. |
| Frontend.ShortLastPageOffersNext | src/main/resources/static/app.js:76-79 | At 45 results, 20 a page, page 3 showing 5 items, the script enables next though page 3 already reaches the end; the corrected pager does not. |
| Frontend.FavoritesIndex | src/main/resources/static/app.js:94-97 | A response that is not an array gives an empty map, and every entry is filed under its own id. |
| Frontend.IndexIsLastWins | src/main/resources/static/app.js:94-97 | An id is in the map exactly when some non-null entry has it, and it maps to the last such entry. |
| Frontend.IndexOfListing | src/main/resources/static/app.js:94-97 | Rebuilding the map from a session's listing gives back exactly that session's bucket. |

## Left out

- HTTP transport is not modelled: the RestClient calls, the 404/4xx/5xx mapping, timeouts and
  JSON binding. Upstream is a function parameter that returns a `Result`, and `NotFound` and
  `ExternalApi` appear only as error tags.
- Concurrency is not modelled: the atomicity of `ConcurrentHashMap.compute`, the `volatile`
  expiry, and parallel cache misses. Every operation runs alone, so the last writer wins.
- Each operation reads the clock once, as `now`. The source reads it twice: on resolve and on
  touch in the store, and on lookup and after the upstream call in the cache. In the source, a
  fresh entry's expiry therefore counts from when upstream answered.
- Lower-casing is ASCII only. Java's full Unicode `toLowerCase` is not modelled.
- `String.compareTo` is modelled as comparison of characters. Java compares UTF-16 code units,
  so characters outside the Basic Multilingual Plane can order differently.
- `trim` and `hasText`/`isBlank` are modelled exactly: no character outside the Basic
  Multilingual Plane is trimmable or whitespace, and neither is a surrogate half.
- String lengths in the query checks and `toYear` are Java's: UTF-16 code units, with two for
  a character outside the Basic Multilingual Plane.
- ApiClient.ToYear: when the fourth UTF-16 code unit is the first half of a surrogate pair,
  Java's `substring(0, 4)` ends in a lone surrogate, which a Dafny `char` cannot hold. The
  model stops before that character and returns three code units.
- Integers are unbounded. Java's `long` expiry arithmetic and `int` page numbers cannot
  overflow in the model.
- The rating (`vote_average`, a Double) and its display are left out, because they are
  floating point.
- FavoritesStore.List and FavoritesStore.ValuesOf take the bucket's key iteration order as the
  `order` parameter, because the hash map's order is unspecified.
  FavoritesStore.ListingDeterministic shows that the result does not depend on it.
- `escapeHtml` accepts any value through `String(...)`. The model takes only strings or null.
- `Number(f.id)` is the identity on the numeric ids the server sends.
- The insertion order of the JavaScript `Map` is not modelled.
- The pager's `Math.ceil(total / perPage)` is computed in floating point but modelled as exact
  integer ceiling division. The two agree for totals below 2^53.
- In `updatePager`, the fallback `lastResponseItemsCount || pageSizeHint` never applies,
  because that branch already requires a non-zero count.
- These are not modelled: the controllers, the session cookie filter, the thread-local
  session context, the exception handler, the DOM rendering, the debounced fetches in the
  script, and the HTTP client construction in MovieApiClient. The session id and `now` are
  explicit arguments instead.
- Store and service `remove` take the Java `long` id as an unbounded integer.

## Findings

| source | as written | input that shows it | evidently intended | confidence | as-written member | corrected member |
|---|---|---|---|---|---|---|
| src/main/resources/static/app.js:76-79 | The last page number is `ceil(total / lastResponseItemsCount)`. A short last page makes it too large, so next stays enabled on the final page. | total 45, 20 per page, page 3 showing 5 items: `ceil(45 / 5) = 9` and 3 < 9, so next is enabled, though 3 × 20 ≥ 45. | Next is enabled exactly when page × page size < total. | medium, not executed | Frontend.UpdatePager (Frontend.ShortLastPageOffersNext) | Frontend.UpdatePagerByPageSize |

=== FILE: api_client.dfy ===
/** The pure part of MovieApiClient: request validation and the normalisation of the
    upstream's search and details responses. The HTTP exchange itself is a parameter
    (`fetch`) that yields either the decoded body, possibly null, or an upstream error. */
module ApiClient {
  import opened Wrappers
  import opened Text
  import opened Errors
  import opened Dto
  import Sorting
  import Config

  const MinQueryLength: nat := 2
  /** Integer.MAX_VALUE: the billing order given to a cast member without one. */
  const IntegerMaxValue: int := 0x7FFF_FFFF
  /** How many cast names the details keep. */
  const TopCastSize: nat := 5

  /** One hit of the upstream search response. */
  datatype MovieShort = MovieShort(id: Option<int>, title: Option<string>, releaseDate: Option<string>, posterPath: Option<string>)

  /** The upstream search response; the results list may itself hold null hits. */
  datatype SearchBody = SearchBody(page: Option<int>, results: Option<seq<Option<MovieShort>>>, totalResults: Option<int>)

  datatype Genre = Genre(id: Option<int>, name: Option<string>)

  datatype CastMember = CastMember(name: Option<string>, order: Option<int>)

  datatype Credits = Credits(cast: Option<seq<Option<CastMember>>>)

  /** The upstream details response, without its floating-point vote average. */
  datatype DetailsBody = DetailsBody(
    id: Option<int>,
    title: Option<string>,
    releaseDate: Option<string>,
    runtime: Option<int>,
    overview: Option<string>,
    posterPath: Option<string>,
    genres: Option<seq<Option<Genre>>>,
    credits: Option<Credits>)

  /** Blank text is reported as absent. */
  function SafeString(s: Option<string>): (r: Option<string>)
    ensures r.Some? <==> s.Some? && HasText(s.value)
    ensures r.Some? ==> r == s
  {
    if s.None? || !HasText(s.value) then None else s
  }

  /** The year of a release date: its first four UTF-16 code units, when it has text and at
      least four of them. */
  function ToYear(releaseDate: Option<string>): (r: Option<string>)
    ensures r.Some? <==> releaseDate.Some? && HasText(releaseDate.value) && Utf16Length(releaseDate.value) >= 4
    ensures r.Some? ==> r.value <= releaseDate.value && 3 <= Utf16Length(r.value) <= 4
    ensures r.Some? && |r.value| < |releaseDate.value| ==>
      4 < Utf16Length(r.value) + Utf16Units(releaseDate.value[|r.value|])
  {
    if releaseDate.None? || !HasText(releaseDate.value) || Utf16Length(releaseDate.value) < 4 then None
    else
      Some(Utf16Prefix(releaseDate.value, 4))
  }

  /** When the first four characters are in the Basic Multilingual Plane, the year is exactly
      those four characters. */
  lemma ToYearOfBmp(d: string)
    requires HasText(d) && |d| >= 4
    requires forall i :: 0 <= i < 4 ==> d[i] as int < 0x1_0000
    ensures ToYear(Some(d)) == Some(d[..4])
  {
    Utf16PrefixOfBmp(d, 4);
    assert Utf16Length(d[..4]) == 4 by {
      Utf16LengthOfBmp(d[..4]);
    }
    assert d == d[..4] + d[4..];
    Utf16LengthAtLeastPrefix(d[..4], d[4..]);
  }

  lemma ToYearOfIsoDate(d: string)
    requires d == "2010-07-16"
    ensures ToYear(Some(d)) == Some("2010")
  {
    assert !IsWhitespace(d[0]);
    assert forall i :: 0 <= i < 4 ==> d[i] as int < 0x1_0000;
    ToYearOfBmp(d);
    assert d[..4] == "2010";
  }

  /** Two characters outside the Basic Multilingual Plane are four UTF-16 code units: long
      enough for a year, and all of it is kept. */
  lemma ToYearCountsCodeUnits(d: string)
    requires d == "\U{1F600}\U{1F600}"
    ensures ToYear(Some(d)) == Some(d)
  {
    assert |d| == 2 && Utf16Units(d[0]) == 2 && Utf16Units(d[1]) == 2;
    assert !IsWhitespace(d[0]);
    assert Utf16Length(d[1..]) == 2;
    assert Utf16Prefix(d[1..], 2) == d[1..];
    assert d == [d[0]] + d[1..];
  }

  /** Removes at most one leading '/'. */
  function LtrimSlash(s: string): (r: string)
    ensures s == r || s == "/" + r
    ensures |r| < |s| <==> (|s| > 0 && s[0] == '/')
  {
    if |s| > 0 && s[0] == '/' then s[1..] else s
  }

  /** The poster URL: absent unless both the path and the image base have text; otherwise the
      base without one trailing slash, one '/', and the path without one leading slash. */
  function ToPosterUrl(posterPath: Option<string>, imageBase: Option<string>): (r: Option<string>)
    ensures r.Some? <==> posterPath.Some? && HasText(posterPath.value) && imageBase.Some? && HasText(imageBase.value)
    ensures r.Some? ==> r.value == Config.TrimTrailingSlash(imageBase).value + "/" + LtrimSlash(posterPath.value)
  {
    if posterPath.None? || !HasText(posterPath.value) then None
    else if imageBase.None? || !HasText(imageBase.value) then None
    else
      var base := imageBase.value;
      if Config.EndsWithSlash(base) then
        assert base == base[..|base| - 1] + "/";
        Some(base + LtrimSlash(posterPath.value))
      else Some(base + "/" + LtrimSlash(posterPath.value))
  }

  /** searchMovies' input check and page clamp, made before any request: the (trimmed
      query, page) pair that is sent upstream, or the refusal. The length is String.length,
      in UTF-16 code units. */
  function SearchRequest(query: Option<string>, page: int): (r: Result<(string, int), Error>)
    ensures r.Failure? <==> query.None? || !HasText(query.value) || Utf16Length(Trim(query.value)) < MinQueryLength
    ensures r.Failure? ==> r.error == BadRequest(ShortQuery)
    ensures r.Success? ==> r.value.0 == Trim(query.value) && r.value.1 >= 1
    ensures r.Success? && page >= 1 ==> r.value.1 == page
    ensures r.Success? && page < 1 ==> r.value.1 == 1
  {
    if query.None? || !HasText(query.value) || Utf16Length(Trim(query.value)) < MinQueryLength then
      Failure(BadRequest(ShortQuery))
    else
      Success((Trim(query.value), if page < 1 then 1 else page))
  }

  /** One search hit as a list item: the id as sent, and the title, year and poster
      normalised as for the details. */
  function ToListItem(m: MovieShort, imageBase: Option<string>): (r: MovieListItem)
    ensures r.id == m.id
    ensures r.title.Some? <==> m.title.Some? && HasText(m.title.value)
    ensures r.title.Some? ==> r.title == m.title
    ensures r.year.Some? ==> m.releaseDate.Some? && r.year.value <= m.releaseDate.value && Utf16Length(r.year.value) <= 4
    ensures r.posterUrl.Some? <==> m.posterPath.Some? && HasText(m.posterPath.value) && imageBase.Some? && HasText(imageBase.value)
    ensures r.title == SafeString(m.title) && r.year == ToYear(m.releaseDate)
    ensures r.posterUrl == ToPosterUrl(m.posterPath, imageBase)
  {
    MovieListItem(m.id, SafeString(m.title), ToYear(m.releaseDate), ToPosterUrl(m.posterPath, imageBase))
  }

  /** The search response as a page: a null body or null results give an empty page at `p`;
      a null hit throws, uncaught; otherwise one item per hit in upstream order, the upstream
      page (or `p`) and the upstream total (or the number of items), normalised. */
  function MapSearchBody(body: Option<SearchBody>, p: int, imageBase: Option<string>): (r: Result<PageResponse<MovieListItem>, Error>)
    requires p >= 1
    ensures body.None? || body.value.results.None? ==> r == Success(PageResponse([], p, 0))
    ensures body.Some? && body.value.results.Some? ==>
      var hits := body.value.results.value;
      && (r.Failure? <==> None in hits)
      && (r.Failure? ==> r.error == NullDereference)
      && (r.Success? ==>
        && |r.value.items| == |hits|
        && (forall i :: 0 <= i < |hits| ==> hits[i].Some? && r.value.items[i] == ToListItem(hits[i].value, imageBase))
        && (body.value.page.None? ==> r.value.page == p)
        && (body.value.page.Some? ==> r.value.page == if body.value.page.value < 1 then 1 else body.value.page.value)
        && (body.value.totalResults.None? ==> r.value.total == |hits|)
        && (body.value.totalResults.Some? ==> r.value.total == if body.value.totalResults.value < 0 then 0 else body.value.totalResults.value))
    ensures r.Success? ==> r.value.page >= 1 && r.value.total >= 0
  {
    if body.None? || body.value.results.None? then Success(NewPageResponse(Some([]), p, 0))
    else
      var hits := body.value.results.value;
      if None in hits then Failure(NullDereference)
      else
        var items := seq(|hits|, i requires 0 <= i < |hits| => assert hits[i] != None; ToListItem(hits[i].value, imageBase));
        var pageUsed := if body.value.page.Some? then body.value.page.value else p;
        var total := if body.value.totalResults.Some? then body.value.totalResults.value else |items|;
        Success(NewPageResponse(Some(items), pageUsed, total))
  }

  /** The Java loop over the hits, one at a time: the first null hit throws, otherwise each
      hit is appended in turn. */
  function MapHits(hits: seq<Option<MovieShort>>, imageBase: Option<string>): Option<seq<MovieListItem>> {
    if |hits| == 0 then Some([])
    else if hits[0].None? then None
    else
      match MapHits(hits[1..], imageBase)
      case None => None
      case Some(rest) => Some([ToListItem(hits[0].value, imageBase)] + rest)
  }

  lemma {:induction false} MapHitsExact(hits: seq<Option<MovieShort>>, imageBase: Option<string>)
    ensures MapHits(hits, imageBase).None? <==> None in hits
    ensures MapHits(hits, imageBase).Some? ==>
      var items := MapHits(hits, imageBase).value;
      && |items| == |hits|
      && forall i :: 0 <= i < |hits| ==> hits[i].Some? && items[i] == ToListItem(hits[i].value, imageBase)
  {
    if |hits| > 0 {
      MapHitsExact(hits[1..], imageBase);
      assert hits == [hits[0]] + hits[1..];
      assert None in hits <==> hits[0] == None || None in hits[1..];
      if MapHits(hits, imageBase).Some? {
        var items := MapHits(hits, imageBase).value;
        forall i | 0 <= i < |hits| ensures hits[i].Some? && items[i] == ToListItem(hits[i].value, imageBase) {
          if i > 0 {
            assert hits[i] == hits[1..][i - 1];
          }
        }
      }
    }
  }

  /** The mapped page agrees with the hit-by-hit loop: it fails exactly when the loop throws,
      and otherwise lists what the loop built. */
  lemma MapSearchBodyIsLoop(body: SearchBody, p: int, imageBase: Option<string>)
    requires p >= 1 && body.results.Some?
    ensures MapSearchBody(Some(body), p, imageBase).Failure? <==> MapHits(body.results.value, imageBase).None?
    ensures MapSearchBody(Some(body), p, imageBase).Success? ==>
      MapSearchBody(Some(body), p, imageBase).value.items == MapHits(body.results.value, imageBase).value
  {
    MapHitsExact(body.results.value, imageBase);
  }

  /** searchMovies: refuse a short query without asking upstream, otherwise ask for the
      trimmed query and clamped page, propagate an upstream error, and map the body. */
  function SearchMovies(query: Option<string>, page: int, imageBase: Option<string>,
                        fetch: (string, int) -> Result<Option<SearchBody>, Error>): (r: Result<PageResponse<MovieListItem>, Error>)
    ensures SearchRequest(query, page).Failure? ==> r == Failure(BadRequest(ShortQuery))
    ensures SearchRequest(query, page).Success? ==>
      var (q, p) := SearchRequest(query, page).value;
      && (fetch(q, p).Failure? ==> r == Failure(fetch(q, p).error))
      && (fetch(q, p).Success? ==> r == MapSearchBody(fetch(q, p).value, p, imageBase))
  {
    match SearchRequest(query, page)
    case Failure(e) => Failure(e)
    case Success((q, p)) =>
      match fetch(q, p)
      case Failure(e) => Failure(e)
      case Success(body) => MapSearchBody(body, p, imageBase)
  }

  /** A genre is listed when it is present and its name has text. */
  predicate IsListedGenre(g: Option<Genre>) {
    g.Some? && g.value.name.Some? && HasText(g.value.name.value)
  }

  /** The names of the listed genres, in upstream order. */
  function GenreNames(genres: seq<Option<Genre>>): (r: seq<string>)
    ensures |r| <= |genres|
    ensures forall i :: 0 <= i < |r| ==> HasText(r[i])
  {
    if |genres| == 0 then []
    else (if IsListedGenre(genres[0]) then [genres[0].value.name.value] else []) + GenreNames(genres[1..])
  }

  /** The filter keeps order: filtering a concatenation concatenates the filtered parts. */
  lemma {:induction false} GenreNamesAppend(a: seq<Option<Genre>>, b: seq<Option<Genre>>)
    ensures GenreNames(a + b) == GenreNames(a) + GenreNames(b)
  {
    if |a| == 0 {
      assert a + b == b;
    } else {
      assert (a + b)[0] == a[0] && (a + b)[1..] == a[1..] + b;
      GenreNamesAppend(a[1..], b);
    }
  }

  /** A name is kept exactly when some listed genre carries it. */
  lemma {:induction false} GenreNamesExact(genres: seq<Option<Genre>>, name: string)
    ensures name in GenreNames(genres) <==>
            exists i :: 0 <= i < |genres| && IsListedGenre(genres[i]) && genres[i].value.name.value == name
  {
    if |genres| > 0 {
      GenreNamesExact(genres[1..], name);
      if name in GenreNames(genres[1..]) {
        var i :| 0 <= i < |genres[1..]| && IsListedGenre(genres[1..][i]) && genres[1..][i].value.name.value == name;
        assert genres[i + 1] == genres[1..][i];
      }
      if exists i :: 0 <= i < |genres| && IsListedGenre(genres[i]) && genres[i].value.name.value == name {
        var i :| 0 <= i < |genres| && IsListedGenre(genres[i]) && genres[i].value.name.value == name;
        if i > 0 {
          assert genres[1..][i - 1] == genres[i];
        }
      }
    }
  }

  /** A cast member is credited when present and named with text. */
  predicate IsCredited(c: Option<CastMember>) {
    c.Some? && c.value.name.Some? && HasText(c.value.name.value)
  }

  predicate AllNamed(cs: seq<CastMember>) {
    forall c :: c in cs ==> c.name.Some? && HasText(c.name.value)
  }

  /** The credited cast members, in upstream order. */
  function CreditedCast(cast: seq<Option<CastMember>>): (r: seq<CastMember>)
    ensures AllNamed(r)
    ensures |r| <= |cast|
    ensures forall c :: c in r ==> Some(c) in cast
  {
    if |cast| == 0 then []
    else (if IsCredited(cast[0]) then [cast[0].value] else []) + CreditedCast(cast[1..])
  }

  /** The filter keeps order: filtering a concatenation concatenates the filtered parts. */
  lemma {:induction false} CreditedCastAppend(a: seq<Option<CastMember>>, b: seq<Option<CastMember>>)
    ensures CreditedCast(a + b) == CreditedCast(a) + CreditedCast(b)
  {
    if |a| == 0 {
      assert a + b == b;
    } else {
      var head := if IsCredited(a[0]) then [a[0].value] else [];
      assert (a + b)[0] == a[0] && (a + b)[1..] == a[1..] + b;
      assert CreditedCast(a + b) == head + CreditedCast(a[1..] + b);
      assert CreditedCast(a) == head + CreditedCast(a[1..]);
      CreditedCastAppend(a[1..], b);
    }
  }

  /** A member is kept exactly when the raw cast holds it present and named with text. */
  lemma {:induction false} CreditedCastExact(cast: seq<Option<CastMember>>, c: CastMember)
    ensures c in CreditedCast(cast) <==> Some(c) in cast && IsCredited(Some(c))
  {
    if |cast| > 0 {
      CreditedCastExact(cast[1..], c);
      assert cast == [cast[0]] + cast[1..];
      assert Some(c) in cast <==> cast[0] == Some(c) || Some(c) in cast[1..];
    }
  }

  /** The billing order, with a missing one placed last: no order a Java int can hold
      comes after it. */
  function BillingOrder(c: CastMember): (r: int)
    ensures c.order.Some? ==> r == c.order.value
    ensures c.order.None? ==> r == IntegerMaxValue
    ensures c.order.None? ==>
      forall other: CastMember :: other.order.Some? && other.order.value <= IntegerMaxValue ==> other.order.value <= r
  {
    if c.order.Some? then c.order.value else IntegerMaxValue
  }

  /** Comparator.comparingInt(billing order) as "compare(a, b) <= 0". */
  predicate BilledNoLater(a: CastMember, b: CastMember) {
    BillingOrder(a) <= BillingOrder(b)
  }

  lemma BillingIsTotalPreorder()
    ensures Sorting.TotalPreorder(BilledNoLater)
  {
  }

  /** The credited cast in billing order; members with equal order stay in upstream order. */
  function Ranked(cast: seq<Option<CastMember>>): (r: seq<CastMember>)
    ensures AllNamed(r)
    ensures multiset(r) == multiset(CreditedCast(cast))
  {
    var credited := CreditedCast(cast);
    var r := Sorting.SortBy(credited, BilledNoLater);
    assert forall c :: c in r ==> c in multiset(credited);
    r
  }

  /** The ranking is sorted by billing order and stable. */
  lemma RankedIsStableSort(cast: seq<Option<CastMember>>, c: CastMember)
    ensures Sorting.Sorted(Ranked(cast), BilledNoLater)
    ensures Sorting.Tied(Ranked(cast), c, BilledNoLater) == Sorting.Tied(CreditedCast(cast), c, BilledNoLater)
  {
    BillingIsTotalPreorder();
    Sorting.SortBySorted(CreditedCast(cast), BilledNoLater);
    Sorting.SortByStable(CreditedCast(cast), c, BilledNoLater);
  }

  function Names(cs: seq<CastMember>): (r: seq<string>)
    requires AllNamed(cs)
    ensures |r| == |cs|
    ensures forall i :: 0 <= i < |r| ==> r[i] == cs[i].name.value && HasText(r[i])
  {
    seq(|cs|, i requires 0 <= i < |cs| => assert cs[i] in cs; cs[i].name.value)
  }

  lemma AllNamedPrefix(cs: seq<CastMember>, n: int)
    requires AllNamed(cs) && 0 <= n <= |cs|
    ensures AllNamed(cs[..n])
  {
    forall c | c in cs[..n] ensures c in cs {
      var i :| 0 <= i < n && cs[..n][i] == c;
      assert cs[i] == c;
    }
  }

  /** The actor names: the first five of the ranking. */
  function TopCast(credits: Option<Credits>): (r: seq<string>)
    ensures |r| <= TopCastSize
    ensures forall i :: 0 <= i < |r| ==> HasText(r[i])
    ensures credits.None? || credits.value.cast.None? ==> r == []
    ensures credits.Some? && credits.value.cast.Some? ==>
      var ranked := Ranked(credits.value.cast.value);
      && |r| == (if |ranked| < TopCastSize then |ranked| else TopCastSize)
      && forall i :: 0 <= i < |r| ==> r[i] == ranked[i].name.value
  {
    if credits.None? || credits.value.cast.None? then []
    else
      var ranked := Ranked(credits.value.cast.value);
      var n := if |ranked| < TopCastSize then |ranked| else TopCastSize;
      AllNamedPrefix(ranked, n);
      var top := ranked[..n];
      var r := Names(top);
      assert forall i :: 0 <= i < |r| ==> top[i] == ranked[i];
      r
  }

  /** The details response as MovieDetails; a null body is an upstream failure. */
  function MapDetails(body: Option<DetailsBody>, imageBase: Option<string>): (r: Result<MovieDetails, Error>)
    ensures r.Failure? <==> body.None?
    ensures r.Failure? ==> r.error == ExternalApi
    ensures r.Success? ==>
      var b := body.value;
      && r.value.id == b.id && r.value.runtime == b.runtime
      && r.value.title == SafeString(b.title) && r.value.plot == SafeString(b.overview)
      && r.value.year == ToYear(b.releaseDate)
      && r.value.posterUrl == ToPosterUrl(b.posterPath, imageBase)
      && r.value.genres == (if b.genres.Some? then GenreNames(b.genres.value) else [])
      && r.value.actors == TopCast(b.credits)
  {
    match body
    case None => Failure(ExternalApi)
    case Some(b) =>
      Success(MovieDetails(
        b.id,
        SafeString(b.title),
        ToYear(b.releaseDate),
        b.runtime,
        if b.genres.Some? then GenreNames(b.genres.value) else [],
        TopCast(b.credits),
        SafeString(b.overview),
        ToPosterUrl(b.posterPath, imageBase)))
  }

  /** getMovieDetails: an upstream error propagates; otherwise the body is mapped. */
  function GetMovieDetails(id: int, imageBase: Option<string>, fetch: int -> Result<Option<DetailsBody>, Error>): (r: Result<MovieDetails, Error>)
    ensures fetch(id).Failure? ==> r == Failure(fetch(id).error)
    ensures fetch(id).Success? ==> r == MapDetails(fetch(id).value, imageBase)
  {
    match fetch(id)
    case Failure(e) => Failure(e)
    case Success(body) => MapDetails(body, imageBase)
  }
}

=== FILE: config.dfy ===
/** MovieApiProperties: the upstream settings, with trailing slashes trimmed on the way in. */
module Config {
  import opened Wrappers
  import opened Text

  /** The connect timeout used when none is configured. */
  const DefaultTimeoutMs: int := 3000

  datatype ApiProperties = ApiProperties(
    baseUrl: Option<string>,
    imageBaseUrl: Option<string>,
    key: Option<string>,
    timeoutMs: int)

  /** A freshly bound properties object: nothing set, the default timeout. */
  function Defaults(): (p: ApiProperties)
    ensures p.baseUrl.None? && p.imageBaseUrl.None? && p.key.None?
    ensures p.timeoutMs == 3000
  {
    ApiProperties(None, None, None, DefaultTimeoutMs)
  }

  predicate EndsWithSlash(s: string) {
    |s| > 0 && s[|s| - 1] == '/'
  }

  /** Removes one trailing '/', if there is one; null and "" pass through. */
  function TrimTrailingSlash(s: Option<string>): (r: Option<string>)
    ensures r.Some? <==> s.Some?
    ensures r.Some? ==> s.value == r.value || s.value == r.value + "/"
    ensures r.Some? ==> (|r.value| < |s.value| <==> EndsWithSlash(s.value))
  {
    match s
    case None => None
    case Some(v) => if |v| == 0 then s else if EndsWithSlash(v) then Some(v[..|v| - 1]) else s
  }

  /** Only one slash goes: "a//" becomes "a/", which still ends with a slash. */
  lemma TrimTrailingSlashRemovesOnlyOne()
    ensures TrimTrailingSlash(Some("a//")) == Some("a/")
  {
    assert "a//"[..2] == "a/";
  }

  /** setBaseUrl stores the trimmed value and leaves the other settings alone. */
  function SetBaseUrl(p: ApiProperties, baseUrl: Option<string>): (r: ApiProperties)
    ensures r.baseUrl == TrimTrailingSlash(baseUrl)
    ensures r.imageBaseUrl == p.imageBaseUrl && r.key == p.key && r.timeoutMs == p.timeoutMs
  {
    p.(baseUrl := TrimTrailingSlash(baseUrl))
  }

  /** setImageBaseUrl stores the trimmed value and leaves the other settings alone. */
  function SetImageBaseUrl(p: ApiProperties, imageBaseUrl: Option<string>): (r: ApiProperties)
    ensures r.imageBaseUrl == TrimTrailingSlash(imageBaseUrl)
    ensures r.baseUrl == p.baseUrl && r.key == p.key && r.timeoutMs == p.timeoutMs
  {
    p.(imageBaseUrl := TrimTrailingSlash(imageBaseUrl))
  }

  /** How Java renders a nullable string inside a concatenation. */
  function Show(s: Option<string>): string {
    match s case None => "null" case Some(v) => v
  }

  const ToStringHead: string := "MovieApiProperties{baseUrl='"

  /** toString: the base URL right after the class name, the timeout in decimal closing it,
      and the image base URL between them. */
  function ToString(p: ApiProperties): (r: string)
    ensures |r| > |ToStringHead| + |Show(p.baseUrl)|
    ensures r[..|ToStringHead|] == ToStringHead
    ensures r[|ToStringHead|..|ToStringHead| + |Show(p.baseUrl)|] == Show(p.baseUrl)
    ensures |r| > |IntToString(p.timeoutMs)| + 1
    ensures r[|r| - |IntToString(p.timeoutMs)| - 1..] == IntToString(p.timeoutMs) + "}"
  {
    "MovieApiProperties{baseUrl='" + Show(p.baseUrl) + "', imageBaseUrl='" + Show(p.imageBaseUrl)
      + "', timeoutMs=" + IntToString(p.timeoutMs) + "}"
  }

  /** The rendering does not depend on the key, so the key never leaks into logs. */
  lemma ToStringOmitsKey(p: ApiProperties, key: Option<string>)
    ensures ToString(p.(key := key)) == ToString(p)
  {
  }
}

=== FILE: dto.dfy ===
/** The data holders exchanged between the layers. Nullable fields are `Option`s. */
module Dto {
  import opened Wrappers

  /** FavoriteDTO: a per-session favourite. Its `id` is a nullable Long. */
  datatype Favorite = Favorite(id: Option<int>, title: Option<string>, year: Option<string>, posterUrl: Option<string>)

  /** MovieListItemDTO: one search hit. */
  datatype MovieListItem = MovieListItem(id: Option<int>, title: Option<string>, year: Option<string>, posterUrl: Option<string>)

  /** MovieDetailsDTO without its floating-point rating. */
  datatype MovieDetails = MovieDetails(
    id: Option<int>,
    title: Option<string>,
    year: Option<string>,
    runtime: Option<int>,
    genres: seq<string>,
    actors: seq<string>,
    plot: Option<string>,
    posterUrl: Option<string>)

  /** PageResponseDTO after normalisation; the getters are the fields. */
  datatype PageResponse<T> = PageResponse(items: seq<T>, page: int, total: int)

  /** The normalising constructor: null items become empty, the page is at least 1 and the
      total is never negative; values already in range are kept as given. */
  function NewPageResponse<T>(items: Option<seq<T>>, page: int, total: int): (r: PageResponse<T>)
    ensures r.items == (if items.Some? then items.value else [])
    ensures r.page >= 1 && (page >= 1 ==> r.page == page) && (page < 1 ==> r.page == 1)
    ensures r.total >= 0 && (total >= 0 ==> r.total == total) && (total < 0 ==> r.total == 0)
  {
    PageResponse(
      match items case Some(xs) => xs case None => [],
      if page < 1 then 1 else page,
      if total < 0 then 0 else total)
  }

  /** Normalising twice is normalising once: a normalised response is a fixed point. */
  lemma NewPageResponseIdempotent<T>(items: Option<seq<T>>, page: int, total: int)
    ensures var r := NewPageResponse(items, page, total);
            NewPageResponse(Some(r.items), r.page, r.total) == r
  {
  }
}

=== FILE: favorites_order.dfy ===
/** The order in which a session's favourites are listed: lower-cased title ascending with
    null titles last, then id ascending with null ids last. */
module FavoritesOrder {
  import opened Wrappers
  import opened Text
  import opened Dto
  import Sorting

  /** Lower-cases a title, keeping null as null. */
  function NullSafeLower(s: Option<string>): (r: Option<string>)
    ensures r.Some? <==> s.Some?
    ensures r.Some? ==> r.value == ToLower(s.value)
  {
    match s case None => None case Some(v) => Some(ToLower(v))
  }

  /** Comparator.nullsLast(naturalOrder()) over nullable strings, as a sign. */
  function CompareTitles(a: Option<string>, b: Option<string>): int {
    match (a, b)
    case (None, None) => 0
    case (None, Some(_)) => 1
    case (Some(_), None) => -1
    case (Some(x), Some(y)) => CompareStrings(x, y)
  }

  /** Comparator.nullsLast(naturalOrder()) over nullable longs, as a sign. */
  function CompareIds(a: Option<int>, b: Option<int>): int {
    match (a, b)
    case (None, None) => 0
    case (None, Some(_)) => 1
    case (Some(_), None) => -1
    case (Some(x), Some(y)) => if x < y then -1 else if y < x then 1 else 0
  }

  /** The listing comparator: lower-cased title ascending with null titles last, then id
      ascending with null ids last. It ties only favourites with equal lower-cased titles and
      equal ids. */
  function CompareFavorites(x: Favorite, y: Favorite): (r: int)
    ensures -1 <= r <= 1
    ensures r == 0 <==> NullSafeLower(x.title) == NullSafeLower(y.title) && x.id == y.id
    ensures x.title.Some? && y.title.None? ==> r < 0
    ensures x.title.None? && y.title.Some? ==> r > 0
    ensures x.title.Some? && y.title.Some? && CompareStrings(ToLower(x.title.value), ToLower(y.title.value)) < 0 ==> r < 0
    ensures NullSafeLower(x.title) == NullSafeLower(y.title) && x.id.Some? && y.id.Some? && x.id.value < y.id.value ==> r < 0
    ensures NullSafeLower(x.title) == NullSafeLower(y.title) && x.id.Some? && y.id.None? ==> r < 0
  {
    var c := CompareTitles(NullSafeLower(x.title), NullSafeLower(y.title));
    CompareTitlesAntisymmetric(NullSafeLower(x.title), NullSafeLower(y.title));
    if c != 0 then c else CompareIds(x.id, y.id)
  }

  /** `x` may be listed before `y`. */
  predicate ListedNoLater(x: Favorite, y: Favorite) {
    CompareFavorites(x, y) <= 0
  }

  lemma CompareTitlesAntisymmetric(a: Option<string>, b: Option<string>)
    ensures CompareTitles(a, b) == -CompareTitles(b, a)
    ensures CompareTitles(a, b) == 0 <==> a == b
  {
    if a.Some? && b.Some? {
      CompareStringsAntisymmetric(a.value, b.value);
      CompareStringsZero(a.value, b.value);
    }
  }

  lemma CompareTitlesTransitive(a: Option<string>, b: Option<string>, c: Option<string>)
    requires CompareTitles(a, b) <= 0 && CompareTitles(b, c) <= 0
    ensures CompareTitles(a, c) <= 0
    ensures CompareTitles(a, b) < 0 || CompareTitles(b, c) < 0 ==> CompareTitles(a, c) < 0
  {
    if a.Some? && b.Some? && c.Some? {
      CompareStringsTransitive(a.value, b.value, c.value);
      CompareStringsZero(a.value, b.value);
      CompareStringsZero(b.value, c.value);
      CompareStringsZero(a.value, c.value);
      CompareStringsAntisymmetric(a.value, c.value);
      if CompareStrings(a.value, c.value) == 0 {
        CompareStringsAntisymmetric(a.value, b.value);
        CompareStringsTransitive(b.value, c.value, a.value);
      }
    }
  }

  /** The listing comparator is a valid comparator: total and transitive. */
  lemma ListingIsTotalPreorder()
    ensures Sorting.TotalPreorder(ListedNoLater)
  {
    forall x, y ensures ListedNoLater(x, y) || ListedNoLater(y, x) {
      CompareTitlesAntisymmetric(NullSafeLower(x.title), NullSafeLower(y.title));
    }
    forall x, y, z | ListedNoLater(x, y) && ListedNoLater(y, z) ensures ListedNoLater(x, z) {
      var tx, ty, tz := NullSafeLower(x.title), NullSafeLower(y.title), NullSafeLower(z.title);
      CompareTitlesAntisymmetric(tx, ty);
      CompareTitlesAntisymmetric(ty, tz);
      CompareTitlesAntisymmetric(tx, tz);
      if CompareTitles(tx, ty) <= 0 && CompareTitles(ty, tz) <= 0 {
        CompareTitlesTransitive(tx, ty, tz);
      } else if CompareTitles(tx, ty) > 0 {
        CompareTitlesTransitive(tz, ty, tx);
      } else {
        CompareTitlesTransitive(tz, ty, tx);
      }
    }
  }

  /** Two favourites the comparator ties have the same lower-cased title and the same id. */
  lemma ListingTieSameId(x: Favorite, y: Favorite)
    requires ListedNoLater(x, y) && ListedNoLater(y, x)
    ensures NullSafeLower(x.title) == NullSafeLower(y.title)
    ensures x.id == y.id
  {
    CompareTitlesAntisymmetric(NullSafeLower(x.title), NullSafeLower(y.title));
  }

  /** The documented example: "apple" before "Banana" before an untitled favourite. */
  lemma ListingExample()
    ensures ListedNoLater(Favorite(Some(2), Some("apple"), None, None), Favorite(Some(1), Some("Banana"), None, None))
    ensures !ListedNoLater(Favorite(Some(1), Some("Banana"), None, None), Favorite(Some(2), Some("apple"), None, None))
    ensures ListedNoLater(Favorite(Some(1), Some("Banana"), None, None), Favorite(Some(0), None, None, None))
    ensures !ListedNoLater(Favorite(Some(0), None, None, None), Favorite(Some(1), Some("Banana"), None, None))
  {
    assert ToLower("Banana") == "banana";
    assert ToLower("apple") == "apple";
  }
}

=== FILE: favorites_service.dfy ===
/** FavoritesService: the validating front of the favourites store. It checks the request
    first and the session second, then hands over to the store. The session id, which the
    service reads from the request context, is an explicit argument here. */
module FavoritesService {
  import opened Wrappers
  import opened Errors
  import opened Dto
  import opened FavoritesStore

  /** currentSessionId: the request's session id, refused when missing or blank. */
  function CurrentSessionId(sid: Option<string>): (r: Result<string, Error>)
    ensures r.Success? <==> HasSession(sid)
    ensures r.Success? ==> Some(r.value) == sid
    ensures r.Failure? ==> r.error == MissingSession
  {
    if sid.None? || !Text.HasText(sid.value) then Failure(MissingSession)
    else Success(sid.value)
  }

  /** add: a null body, then a missing or non-positive id, are refused as bad requests
      before the session is looked at; a valid favourite in a valid session is exactly the
      store's add. */
  function AddFavorite(store: Store, sid: Option<string>, favorite: Option<Favorite>, now: int): (step: Step<()>)
    ensures favorite.None? ==> step == Step(store, Failure(BadRequest(NullBody)))
    ensures favorite.Some? && !IsPositiveId(favorite.value.id) ==>
      step == Step(store, Failure(BadRequest(BadFavoriteId)))
    ensures favorite.Some? && IsPositiveId(favorite.value.id) && !HasSession(sid) ==>
      step == Step(store, Failure(MissingSession))
    ensures favorite.Some? && IsPositiveId(favorite.value.id) && HasSession(sid) ==>
      step == FavoritesStore.Add(store, sid, favorite, now)
  {
    if favorite.None? then Step(store, Failure(BadRequest(NullBody)))
    else if favorite.value.id.None? || favorite.value.id.value <= 0 then
      Step(store, Failure(BadRequest(BadFavoriteId)))
    else
      match CurrentSessionId(sid)
      case Failure(e) => Step(store, Failure(e))
      case Success(s) => FavoritesStore.Add(store, Some(s), favorite, now)
  }

  /** remove: a non-positive id is refused as a bad request before the session is looked at;
      otherwise it is exactly the store's remove. */
  function RemoveFavorite(store: Store, sid: Option<string>, id: int, now: int): (step: Step<()>)
    ensures id <= 0 ==> step == Step(store, Failure(BadRequest(BadParamId)))
    ensures id > 0 && !HasSession(sid) ==> step == Step(store, Failure(MissingSession))
    ensures id > 0 && HasSession(sid) ==> step == FavoritesStore.Remove(store, sid, id, now)
  {
    if id <= 0 then Step(store, Failure(BadRequest(BadParamId)))
    else
      match CurrentSessionId(sid)
      case Failure(e) => Step(store, Failure(e))
      case Success(s) => FavoritesStore.Remove(store, Some(s), id, now)
  }

  /** list: a missing session is refused; otherwise the store's listing of that session. */
  method ListFavorites(store: Store, sid: Option<string>, now: int, order: seq<int>) returns (step: Step<seq<Favorite>>)
    requires StoreInv(store)
    requires HasSession(sid) ==> IsKeyOrder(order, Contents(store, sid.value, now))
    ensures !HasSession(sid) ==> step == Step(store, Failure(MissingSession))
    ensures HasSession(sid) ==>
      && step.store == Refreshed(store, sid.value, now, Contents(store, sid.value, now))
      && step.result.Success?
      && HoldsEachOnce(step.result.value, Contents(store, sid.value, now))
      && Sorting.Sorted(step.result.value, FavoritesOrder.ListedNoLater)
    ensures StoreInv(step.store)
  {
    var session := CurrentSessionId(sid);
    if session.Failure? {
      return Step(store, Failure(session.error));
    }
    step := FavoritesStore.List(store, Some(session.value), now, order);
  }

  /** The service's add differs from the store's only in how a null body is reported: the
      service calls it a bad request where the store fails with a null-argument error. */
  lemma AddMatchesStore(store: Store, sid: Option<string>, favorite: Option<Favorite>, now: int)
    ensures favorite.Some? ==> AddFavorite(store, sid, favorite, now) == FavoritesStore.Add(store, sid, favorite, now)
    ensures favorite.None? ==>
      && AddFavorite(store, sid, favorite, now).result == Failure(BadRequest(NullBody))
      && FavoritesStore.Add(store, sid, favorite, now).result == Failure(NullArgument)
  {
  }

  /** The service's remove repeats the store's own checks in the same order, so the two agree
      on every input. */
  lemma RemoveMatchesStore(store: Store, sid: Option<string>, id: int, now: int)
    ensures RemoveFavorite(store, sid, id, now) == FavoritesStore.Remove(store, sid, id, now)
  {
  }

  /** Validation precedes the session check: an invalid request without a session is a bad
      request, never a missing session, and leaves the store as it was. */
  lemma InvalidBeforeSession(store: Store, favorite: Option<Favorite>, id: int, now: int)
    requires favorite.None? || !IsPositiveId(favorite.value.id)
    requires id <= 0
    ensures AddFavorite(store, None, favorite, now).result.Failure?
    ensures AddFavorite(store, None, favorite, now).result.error.BadRequest?
    ensures AddFavorite(store, None, favorite, now).store == store
    ensures RemoveFavorite(store, None, id, now) == Step(store, Failure(BadRequest(BadParamId)))
  {
  }
}

=== FILE: favorites_store.dfy ===
/** SessionFavoritesStore: favourites kept per anonymous session, each session's bucket
    expiring seven days after its last use and holding at most 200 distinct ids.
    The store is a value; every operation takes the clock reading `now` and the session id
    and returns the new store together with its outcome. */
module FavoritesStore {
  import opened Wrappers
  import opened Text
  import opened Errors
  import opened Dto
  import Sorting
  import opened FavoritesOrder

  /** Seven days in milliseconds: 604 800 000. */
  const SessionTtlMs: int := 7 * 24 * 60 * 60 * 1000
  const MaxFavoritesPerSession: nat := 200

  /** One session's favourites, keyed by id, and the time at which they lapse. */
  datatype Bucket = Bucket(favorites: map<int, Favorite>, expiresAt: int)

  type Store = map<string, Bucket>

  /** The store after an operation, and what the operation returned or threw. A failure
      can come with a changed store: a refused add still resolves and refreshes the bucket. */
  datatype Step<T> = Step(store: Store, result: Result<T, Error>)

  /** What every bucket satisfies: each favourite is filed under its own positive id, and
      there are at most 200 of them. */
  predicate BucketInv(b: Bucket) {
    && |b.favorites| <= MaxFavoritesPerSession
    && forall id :: id in b.favorites ==> id > 0 && b.favorites[id].id == Some(id)
  }

  predicate StoreInv(store: Store) {
    forall sid :: sid in store ==> BucketInv(store[sid])
  }

  /** A session id is usable when present and not blank. */
  predicate HasSession(sid: Option<string>) {
    sid.Some? && HasText(sid.value)
  }

  predicate IsPositiveId(id: Option<int>) {
    id.Some? && id.value > 0
  }

  /** The session has a bucket that has not yet expired at `now`. */
  predicate IsLive(store: Store, sid: string, now: int) {
    sid in store && now < store[sid].expiresAt
  }

  /** The favourites a session sees at `now`: an expired or missing bucket counts as empty. */
  function Contents(store: Store, sid: string, now: int): map<int, Favorite> {
    if IsLive(store, sid, now) then store[sid].favorites else map[]
  }

  /** The store once the session's bucket holds `items` and has just been touched at `now`;
      every other session's bucket is as it was. */
  function Refreshed(store: Store, sid: string, now: int, items: map<int, Favorite>): Store {
    store[sid := Bucket(items, now + SessionTtlMs)]
  }

  function NewBucket(now: int): (b: Bucket)
    ensures b.favorites == map[] && b.expiresAt == now + SessionTtlMs
  {
    Bucket(map[], now + SessionTtlMs)
  }

  /** Bucket.touch: the bucket now lapses seven days after `now`, and is live until then. */
  function Touch(b: Bucket, now: int): (r: Bucket)
    ensures r.favorites == b.favorites
    ensures r.expiresAt == now + SessionTtlMs && r.expiresAt > now
  {
    b.(expiresAt := now + SessionTtlMs)
  }

  /** The defensive copy stored on add; on immutable values it is the favourite itself. */
  function CopyShallow(f: Favorite): (r: Favorite)
    ensures r == f
  {
    Favorite(f.id, f.title, f.year, f.posterUrl)
  }

  /** getOrInitBucket: refuse a missing or blank session id; otherwise keep a live bucket,
      and replace a missing or expired one by an empty bucket, discarding what it held. */
  function GetOrInitBucket(store: Store, sid: Option<string>, now: int): (r: Result<(Store, Bucket), Error>)
    ensures r.Failure? <==> !HasSession(sid)
    ensures r.Failure? ==> r.error == MissingSession
    ensures r.Success? ==>
      && r.value.0 == store[sid.value := r.value.1]
      && r.value.1.favorites == Contents(store, sid.value, now)
      && (IsLive(store, sid.value, now) ==> r.value.1 == store[sid.value])
      && (!IsLive(store, sid.value, now) ==> r.value.1.expiresAt == now + SessionTtlMs)
  {
    if !HasSession(sid) then Failure(MissingSession)
    else
      var id := sid.value;
      var b :=
        if id !in store then NewBucket(now)
        else if store[id].expiresAt <= now then NewBucket(now)
        else store[id];
      Success((store[id := b], b))
  }

  /** add: a null favourite or a missing or non-positive id is refused before any bucket is
      touched; a missing session is refused next. Otherwise the bucket is resolved and
      touched, and then a new id in a full bucket is refused, while any other id is upserted. */
  function Add(store: Store, sid: Option<string>, favorite: Option<Favorite>, now: int): (step: Step<()>)
    ensures favorite.None? ==> step == Step(store, Failure(NullArgument))
    ensures favorite.Some? && !IsPositiveId(favorite.value.id) ==>
      step == Step(store, Failure(BadRequest(BadFavoriteId)))
    ensures favorite.Some? && IsPositiveId(favorite.value.id) && !HasSession(sid) ==>
      step == Step(store, Failure(MissingSession))
    ensures favorite.Some? && IsPositiveId(favorite.value.id) && HasSession(sid) ==>
      var items := Contents(store, sid.value, now);
      var id := favorite.value.id.value;
      if id !in items && |items| >= MaxFavoritesPerSession then
        step == Step(Refreshed(store, sid.value, now, items), Failure(BadRequest(LimitExceeded)))
      else
        step == Step(Refreshed(store, sid.value, now, items[id := favorite.value]), Success(()))
  {
    if favorite.None? then Step(store, Failure(NullArgument))
    else if favorite.value.id.None? || favorite.value.id.value <= 0 then
      Step(store, Failure(BadRequest(BadFavoriteId)))
    else
      match GetOrInitBucket(store, sid, now)
      case Failure(e) => Step(store, Failure(e))
      case Success((resolved, bucket)) =>
        var b := Touch(bucket, now);
        var id := favorite.value.id.value;
        if id !in b.favorites && |b.favorites| >= MaxFavoritesPerSession then
          Step(resolved[sid.value := b], Failure(BadRequest(LimitExceeded)))
        else
          Step(resolved[sid.value := b.(favorites := b.favorites[id := CopyShallow(favorite.value)])], Success(()))
  }

  /** remove: a non-positive id is refused before any bucket is touched; otherwise the id is
      dropped from the resolved and touched bucket, silently when it is not there. */
  function Remove(store: Store, sid: Option<string>, id: int, now: int): (step: Step<()>)
    ensures id <= 0 ==> step == Step(store, Failure(BadRequest(BadParamId)))
    ensures id > 0 && !HasSession(sid) ==> step == Step(store, Failure(MissingSession))
    ensures id > 0 && HasSession(sid) ==>
      step == Step(Refreshed(store, sid.value, now, Contents(store, sid.value, now) - {id}), Success(()))
  {
    if id <= 0 then Step(store, Failure(BadRequest(BadParamId)))
    else
      match GetOrInitBucket(store, sid, now)
      case Failure(e) => Step(store, Failure(e))
      case Success((resolved, bucket)) =>
        var b := Touch(bucket, now);
        Step(resolved[sid.value := b.(favorites := b.favorites - {id})], Success(()))
  }

  /** `f` is the favourite the bucket files under `f`'s own id. */
  predicate IsStored(f: Favorite, items: map<int, Favorite>) {
    f.id.Some? && f.id.value in items && items[f.id.value] == f
  }

  /** Each stored favourite occurs in `out` exactly once, and nothing else does. */
  ghost predicate HoldsEachOnce(out: seq<Favorite>, items: map<int, Favorite>) {
    forall f :: multiset(out)[f] == if IsStored(f, items) then 1 else 0
  }

  predicate FiledById(items: map<int, Favorite>) {
    forall id :: id in items ==> items[id].id == Some(id)
  }

  /** `order` is an iteration order of the map's keys: every key exactly once. The map's
      own order is unspecified, so the operations that walk a bucket take it as a parameter. */
  ghost predicate IsKeyOrder(order: seq<int>, items: map<int, Favorite>) {
    && (forall k :: k in items ==> k in order)
    && (forall i :: 0 <= i < |order| ==> order[i] in items)
    && (forall i, j :: 0 <= i < j < |order| ==> order[i] != order[j])
  }

  lemma KeyInOrder(order: seq<int>, items: map<int, Favorite>, k: int)
    requires IsKeyOrder(order, items) && k in items
    ensures k in order
  {
  }

  /** The bucket's values, walked in the given key order. */
  method ValuesOf(items: map<int, Favorite>, order: seq<int>) returns (out: seq<Favorite>)
    requires FiledById(items) && IsKeyOrder(order, items)
    ensures HoldsEachOnce(out, items)
    ensures |out| == |order|
  {
    out := [];
    var i := 0;
    while i < |order|
      invariant 0 <= i <= |order| && |out| == i
      invariant forall f :: multiset(out)[f] == if IsStored(f, items) && f.id.value in order[..i] then 1 else 0
    {
      var f := items[order[i]];
      ghost var before := out;
      out := out + [f];
      assert order[..i + 1] == order[..i] + [order[i]];
      forall g ensures multiset(out)[g] == if IsStored(g, items) && g.id.value in order[..i + 1] then 1 else 0 {
        assert multiset(out)[g] == multiset(before)[g] + (if g == f then 1 else 0);
        if g == f {
          assert f.id == Some(order[i]);
          forall j | 0 <= j < i ensures order[..i][j] != order[i] {
            assert order[..i][j] == order[j];
          }
        } else if IsStored(g, items) {
          assert g.id.value != order[i];
        }
      }
      i := i + 1;
    }
    assert order[..i] == order;
    forall f | IsStored(f, items) ensures f.id.value in order {
      KeyInOrder(order, items, f.id.value);
    }
  }

  /** list: refuse a missing session; otherwise resolve and touch the bucket and return its
      favourites, each exactly once, sorted by the listing order. `order` is the iteration
      order of the resolved bucket's keys. */
  method List(store: Store, sid: Option<string>, now: int, order: seq<int>) returns (step: Step<seq<Favorite>>)
    requires StoreInv(store)
    requires HasSession(sid) ==> IsKeyOrder(order, Contents(store, sid.value, now))
    ensures !HasSession(sid) ==> step == Step(store, Failure(MissingSession))
    ensures HasSession(sid) ==>
      && step.store == Refreshed(store, sid.value, now, Contents(store, sid.value, now))
      && step.result.Success?
      && HoldsEachOnce(step.result.value, Contents(store, sid.value, now))
      && Sorting.Sorted(step.result.value, ListedNoLater)
    ensures StoreInv(step.store)
  {
    var resolved := GetOrInitBucket(store, sid, now);
    if resolved.Failure? {
      return Step(store, Failure(resolved.error));
    }
    var (after, bucket) := resolved.value;
    var b := Touch(bucket, now);
    var values := ValuesOf(b.favorites, order);
    var sorted := Sorting.SortBy(values, ListedNoLater);
    ListingIsTotalPreorder();
    Sorting.SortBySorted(values, ListedNoLater);
    ContentsWithinInvariant(store, sid.value, now);
    RefreshedKeepsInvariant(store, sid.value, now, Contents(store, sid.value, now));
    step := Step(after[sid.value := b], Success(sorted));
  }

  /** The listing is determined by the bucket's contents alone: any two sorted sequences
      holding each favourite exactly once are the same sequence. */
  lemma ListingDeterministic(a: seq<Favorite>, b: seq<Favorite>, items: map<int, Favorite>)
    requires HoldsEachOnce(a, items) && HoldsEachOnce(b, items)
    requires Sorting.Sorted(a, ListedNoLater) && Sorting.Sorted(b, ListedNoLater)
    ensures a == b
  {
    ListingIsTotalPreorder();
    assert multiset(a) == multiset(b) by {
      forall f ensures multiset(a)[f] == multiset(b)[f] {
      }
    }
    forall x, y | x in a && y in a && Sorting.Tie(x, y, ListedNoLater) ensures x == y {
      ListingTieSameId(x, y);
      assert multiset(a)[x] > 0 && multiset(a)[y] > 0;
    }
    Sorting.SortedUnique(a, b, ListedNoLater);
  }

  /** Another session's bucket is as it was: present exactly when it was, and equal. */
  predicate Untouched(before: Store, after: Store, other: string) {
    && (other in before <==> other in after)
    && (other in before ==> after[other] == before[other])
  }

  /** Writing a bucket that satisfies the bucket invariant keeps the store invariant. */
  lemma RefreshedKeepsInvariant(store: Store, sid: string, now: int, items: map<int, Favorite>)
    requires StoreInv(store) && BucketInv(Bucket(items, now + SessionTtlMs))
    ensures StoreInv(Refreshed(store, sid, now, items))
  {
  }

  /** The contents a session sees always satisfy the bucket invariant. */
  lemma ContentsWithinInvariant(store: Store, sid: string, now: int)
    requires StoreInv(store)
    ensures BucketInv(Bucket(Contents(store, sid, now), now + SessionTtlMs))
  {
  }

  /** Every add, successful or not, keeps each bucket within 200 ids filed by positive id. */
  lemma AddKeepsInvariant(store: Store, sid: Option<string>, favorite: Option<Favorite>, now: int)
    requires StoreInv(store)
    ensures StoreInv(Add(store, sid, favorite, now).store)
  {
    if favorite.Some? && IsPositiveId(favorite.value.id) && HasSession(sid) {
      var items := Contents(store, sid.value, now);
      var f := favorite.value;
      ContentsWithinInvariant(store, sid.value, now);
      if f.id.value in items || |items| < MaxFavoritesPerSession {
        var updated := items[f.id.value := f];
        assert |updated| <= MaxFavoritesPerSession;
        assert BucketInv(Bucket(updated, now + SessionTtlMs));
        RefreshedKeepsInvariant(store, sid.value, now, updated);
      } else {
        RefreshedKeepsInvariant(store, sid.value, now, items);
      }
    }
  }

  lemma RemoveKeepsInvariant(store: Store, sid: Option<string>, id: int, now: int)
    requires StoreInv(store)
    ensures StoreInv(Remove(store, sid, id, now).store)
  {
    if id > 0 && HasSession(sid) {
      var items := Contents(store, sid.value, now);
      ContentsWithinInvariant(store, sid.value, now);
      assert |items - {id}| <= |items|;
      RefreshedKeepsInvariant(store, sid.value, now, items - {id});
    }
  }

  /** add is an upsert on the session's visible favourites. It succeeds exactly when the id
      is already there or there is room; then the id maps to the new favourite, the size grows
      by one for a new id and stays for an old one, and never passes 200. A refusal leaves
      the favourites as they were. */
  lemma AddUpsert(store: Store, sid: Option<string>, f: Favorite, now: int)
    requires StoreInv(store) && HasSession(sid) && IsPositiveId(f.id)
    ensures
      var before := Contents(store, sid.value, now);
      var step := Add(store, sid, Some(f), now);
      var after := Contents(step.store, sid.value, now);
      && (step.result.Success? <==> f.id.value in before || |before| < MaxFavoritesPerSession)
      && (step.result.Success? ==>
            && after == before[f.id.value := f]
            && |after| == |before| + (if f.id.value in before then 0 else 1))
      && (step.result.Failure? ==>
            after == before && step.result.error == BadRequest(LimitExceeded))
      && |after| <= MaxFavoritesPerSession
  {
    ContentsWithinInvariant(store, sid.value, now);
  }

  /** remove deletes exactly the given id from the session's visible favourites; an absent
      id leaves them as they were. */
  lemma RemoveDeletesOnly(store: Store, sid: Option<string>, id: int, now: int)
    requires HasSession(sid) && id > 0
    ensures
      var before := Contents(store, sid.value, now);
      var after := Contents(Remove(store, sid, id, now).store, sid.value, now);
      && id !in after
      && (forall k :: k in after <==> k in before && k != id)
      && (forall k :: k in after ==> after[k] == before[k])
      && (id !in before ==> after == before)
  {
  }

  /** An add on a missing or expired bucket starts from nothing: the old favourites are gone. */
  lemma ExpiredBucketStartsEmpty(store: Store, sid: Option<string>, f: Favorite, now: int)
    requires HasSession(sid) && IsPositiveId(f.id) && !IsLive(store, sid.value, now)
    ensures
      var step := Add(store, sid, Some(f), now);
      step.result.Success? && Contents(step.store, sid.value, now) == map[f.id.value := f]
  {
  }

  /** After any operation that reached the bucket, the session stays live for exactly seven
      days: until then later readings see the same favourites, and from then on none. */
  lemma RefreshedLiveForTtl(store: Store, sid: string, now: int, items: map<int, Favorite>, later: int)
    ensures Refreshed(store, sid, now, items)[sid].expiresAt == now + 604_800_000
    ensures later < now + SessionTtlMs ==> Contents(Refreshed(store, sid, now, items), sid, later) == items
    ensures later >= now + SessionTtlMs ==> Contents(Refreshed(store, sid, now, items), sid, later) == map[]
  {
  }

  /** No operation changes the bucket of any other session. */
  lemma OtherSessionsUntouched(store: Store, sid: Option<string>, f: Option<Favorite>, id: int, now: int, other: string)
    requires sid != Some(other)
    ensures Untouched(store, Add(store, sid, f, now).store, other)
    ensures Untouched(store, Remove(store, sid, id, now).store, other)
    ensures HasSession(sid) ==>
      Untouched(store, Refreshed(store, sid.value, now, Contents(store, sid.value, now)), other)
  {
  }
}

=== FILE: frontend.dfy ===
/** The pure parts of the browser script: HTML escaping, the pager's enable/disable arithmetic
    and the favourites lookup the page keeps. */
module Frontend {
  import opened Wrappers
  import opened Dto
  import FavoritesStore

  /** String.prototype.replaceAll with a one-character pattern: every `c` becomes `rep`. */
  function ReplaceChar(s: string, c: char, rep: string): string {
    if |s| == 0 then ""
    else (if s[0] == c then rep else [s[0]]) + ReplaceChar(s[1..], c, rep)
  }

  lemma {:induction false} ReplaceCharAppend(a: string, b: string, c: char, rep: string)
    ensures ReplaceChar(a + b, c, rep) == ReplaceChar(a, c, rep) + ReplaceChar(b, c, rep)
  {
    if |a| > 0 {
      assert (a + b)[0] == a[0] && (a + b)[1..] == a[1..] + b;
      ReplaceCharAppend(a[1..], b, c, rep);
    } else {
      assert a + b == b;
    }
  }

  /** Replacing a character the string does not hold changes nothing. */
  lemma {:induction false} ReplaceAbsent(s: string, c: char, rep: string)
    requires c !in s
    ensures ReplaceChar(s, c, rep) == s
  {
    if |s| > 0 {
      assert s[1..] + [] == s[1..];
      ReplaceAbsent(s[1..], c, rep);
      assert s == [s[0]] + s[1..];
    }
  }

  lemma ReplaceOne(x: char, c: char, rep: string)
    ensures ReplaceChar([x], c, rep) == if x == c then rep else [x]
  {
    assert [x][1..] == [];
  }

  /** The five replacements, in the order the script applies them. */
  function ReplacePasses(s: string): string {
    var amp := ReplaceChar(s, '&', "&amp;");
    var lt := ReplaceChar(amp, '<', "&lt;");
    var gt := ReplaceChar(lt, '>', "&gt;");
    var quot := ReplaceChar(gt, '"', "&quot;");
    ReplaceChar(quot, '\'', "&#039;")
  }

  /** escapeHtml: null or undefined read as the empty string, then the five replacements. */
  function EscapeHtml(s: Option<string>): (r: string)
    ensures s.None? ==> r == ""
  {
    ReplacePasses(if s.None? then "" else s.value)
  }

  /** The entity one character becomes, or the character itself. */
  function EscapeChar(c: char): string {
    if c == '&' then "&amp;"
    else if c == '<' then "&lt;"
    else if c == '>' then "&gt;"
    else if c == '"' then "&quot;"
    else if c == '\'' then "&#039;"
    else [c]
  }

  /** Escaping character by character, in one pass. */
  function EscapeEach(s: string): string {
    if |s| == 0 then "" else EscapeChar(s[0]) + EscapeEach(s[1..])
  }

  lemma {:induction false} ReplacePassesAppend(a: string, b: string)
    ensures ReplacePasses(a + b) == ReplacePasses(a) + ReplacePasses(b)
  {
    ReplaceCharAppend(a, b, '&', "&amp;");
    var a1, b1 := ReplaceChar(a, '&', "&amp;"), ReplaceChar(b, '&', "&amp;");
    ReplaceCharAppend(a1, b1, '<', "&lt;");
    var a2, b2 := ReplaceChar(a1, '<', "&lt;"), ReplaceChar(b1, '<', "&lt;");
    ReplaceCharAppend(a2, b2, '>', "&gt;");
    var a3, b3 := ReplaceChar(a2, '>', "&gt;"), ReplaceChar(b2, '>', "&gt;");
    ReplaceCharAppend(a3, b3, '"', "&quot;");
    var a4, b4 := ReplaceChar(a3, '"', "&quot;"), ReplaceChar(b3, '"', "&quot;");
    ReplaceCharAppend(a4, b4, '\'', "&#039;");
  }

  lemma ReplacePassesPlain(c: char)
    requires c !in "&<>\"'"
    ensures ReplacePasses([c]) == [c]
  {
    ReplaceOne(c, '&', "&amp;");
    ReplaceOne(c, '<', "&lt;");
    ReplaceOne(c, '>', "&gt;");
    ReplaceOne(c, '"', "&quot;");
    ReplaceOne(c, '\'', "&#039;");
  }

  lemma ReplacePassesAmp(c: char, e: string)
    requires c == '&' && e == "&amp;"
    ensures ReplacePasses([c]) == e
  {
    ReplaceOne(c, '&', e);
    ReplaceAbsent(e, '<', "&lt;");
    ReplaceAbsent(e, '>', "&gt;");
    ReplaceAbsent(e, '"', "&quot;");
    ReplaceAbsent(e, '\'', "&#039;");
  }

  lemma ReplacePassesLt(c: char, e: string)
    requires c == '<' && e == "&lt;"
    ensures ReplacePasses([c]) == e
  {
    ReplaceOne(c, '&', "&amp;");
    ReplaceOne(c, '<', e);
    ReplaceAbsent(e, '>', "&gt;");
    ReplaceAbsent(e, '"', "&quot;");
    ReplaceAbsent(e, '\'', "&#039;");
  }

  lemma ReplacePassesGt(c: char, e: string)
    requires c == '>' && e == "&gt;"
    ensures ReplacePasses([c]) == e
  {
    ReplaceOne(c, '&', "&amp;");
    ReplaceOne(c, '<', "&lt;");
    ReplaceOne(c, '>', e);
    ReplaceAbsent(e, '"', "&quot;");
    ReplaceAbsent(e, '\'', "&#039;");
  }

  lemma ReplacePassesQuot(c: char, e: string)
    requires c == '"' && e == "&quot;"
    ensures ReplacePasses([c]) == e
  {
    ReplaceOne(c, '&', "&amp;");
    ReplaceOne(c, '<', "&lt;");
    ReplaceOne(c, '>', "&gt;");
    ReplaceOne(c, '"', e);
    ReplaceAbsent(e, '\'', "&#039;");
  }

  lemma ReplacePassesApos(c: char, e: string)
    requires c == '\'' && e == "&#039;"
    ensures ReplacePasses([c]) == e
  {
    ReplaceOne(c, '&', "&amp;");
    ReplaceOne(c, '<', "&lt;");
    ReplaceOne(c, '>', "&gt;");
    ReplaceOne(c, '"', "&quot;");
    ReplaceOne(c, '\'', e);
  }

  /** On one character the five passes give its entity: no pass re-escapes what an earlier
      one wrote, because '&' goes first and no entity holds a later pattern. */
  lemma ReplacePassesOne(c: char)
    ensures ReplacePasses([c]) == EscapeChar(c)
  {
    if c == '&' {
      ReplacePassesAmp(c, EscapeChar(c));
    } else if c == '<' {
      ReplacePassesLt(c, EscapeChar(c));
    } else if c == '>' {
      ReplacePassesGt(c, EscapeChar(c));
    } else if c == '"' {
      ReplacePassesQuot(c, EscapeChar(c));
    } else if c == '\'' {
      ReplacePassesApos(c, EscapeChar(c));
    } else {
      ReplacePassesPlain(c);
    }
  }

  /** The chain of replaceAll calls escapes each character independently: it is the
      one-pass escaping. */
  lemma {:induction false} EscapeHtmlIsEscapeEach(s: string)
    ensures ReplacePasses(s) == EscapeEach(s)
  {
    if |s| == 0 {
      assert ReplacePasses(s) == "" by {
        ReplaceAbsent(s, '&', "&amp;");
        ReplaceAbsent(s, '<', "&lt;");
        ReplaceAbsent(s, '>', "&gt;");
        ReplaceAbsent(s, '"', "&quot;");
        ReplaceAbsent(s, '\'', "&#039;");
      }
    } else {
      assert s == [s[0]] + s[1..];
      ReplacePassesAppend([s[0]], s[1..]);
      ReplacePassesOne(s[0]);
      EscapeHtmlIsEscapeEach(s[1..]);
    }
  }

  /** `s` holds `prefix` at position `i`. */
  predicate HasAt(s: string, i: int, prefix: string) {
    0 <= i && i + |prefix| <= |s| && s[i..i + |prefix|] == prefix
  }

  /** One of the five entities the escaping writes starts at position `i`. */
  predicate IsEntityAt(s: string, i: int) {
    || HasAt(s, i, "&amp;") || HasAt(s, i, "&lt;") || HasAt(s, i, "&gt;")
    || HasAt(s, i, "&quot;") || HasAt(s, i, "&#039;")
  }

  /** No tag, quote or apostrophe delimiter occurs. */
  predicate NoDelimiter(s: string) {
    forall i :: 0 <= i < |s| ==> s[i] != '<' && s[i] != '>' && s[i] != '"' && s[i] != '\''
  }

  /** Every '&' begins an entity. */
  predicate AmpersandsStartEntities(s: string) {
    forall i :: 0 <= i < |s| && s[i] == '&' ==> IsEntityAt(s, i)
  }

  /** What makes text safe to splice into markup: no delimiter, and no stray '&'. */
  predicate IsMarkupSafe(s: string) {
    NoDelimiter(s) && AmpersandsStartEntities(s)
  }

  lemma EntityShifts(a: string, b: string, j: int)
    requires IsEntityAt(b, j)
    ensures IsEntityAt(a + b, |a| + j)
  {
    var k := |a| + j;
    forall p: string | HasAt(b, j, p) ensures HasAt(a + b, k, p) {
      assert (a + b)[k..k + |p|] == b[j..j + |p|];
    }
  }

  lemma EntityExtends(a: string, b: string, i: int)
    requires IsEntityAt(a, i)
    ensures IsEntityAt(a + b, i)
  {
    forall p: string | HasAt(a, i, p) ensures HasAt(a + b, i, p) {
      assert (a + b)[i..i + |p|] == a[i..i + |p|];
    }
  }

  lemma NoDelimiterAppend(a: string, b: string)
    requires NoDelimiter(a) && NoDelimiter(b)
    ensures NoDelimiter(a + b)
  {
    forall i | 0 <= i < |a + b| ensures (a + b)[i] != '<' && (a + b)[i] != '>' && (a + b)[i] != '"' && (a + b)[i] != '\'' {
      if i < |a| {
        assert (a + b)[i] == a[i];
      } else {
        assert (a + b)[i] == b[i - |a|];
      }
    }
  }

  lemma AmpersandsAppend(a: string, b: string)
    requires AmpersandsStartEntities(a) && AmpersandsStartEntities(b)
    ensures AmpersandsStartEntities(a + b)
  {
    var r := a + b;
    forall i | 0 <= i < |r| && r[i] == '&' ensures IsEntityAt(r, i) {
      if i < |a| {
        assert r[i] == a[i];
        EntityExtends(a, b, i);
      } else {
        assert r[i] == b[i - |a|];
        EntityShifts(a, b, i - |a|);
      }
    }
  }

  lemma EscapeCharSafe(c: char)
    ensures IsMarkupSafe(EscapeChar(c))
  {
    var e := EscapeChar(c);
    if c in "&<>\"'" {
      assert e[0] == '&' && forall i :: 1 <= i < |e| ==> e[i] != '&';
      assert e[0..|e|] == e;
    }
  }

  lemma {:induction false} EscapeEachSafe(s: string)
    ensures IsMarkupSafe(EscapeEach(s))
  {
    if |s| > 0 {
      var head, rest := EscapeChar(s[0]), EscapeEach(s[1..]);
      EscapeCharSafe(s[0]);
      EscapeEachSafe(s[1..]);
      NoDelimiterAppend(head, rest);
      AmpersandsAppend(head, rest);
    }
  }

  /** Whatever it is given, escapeHtml returns text with no markup delimiter, in which every
      '&' starts one of the five entities. */
  lemma EscapeHtmlSafe(s: Option<string>)
    ensures IsMarkupSafe(EscapeHtml(s))
  {
    var t := if s.None? then "" else s.value;
    EscapeHtmlIsEscapeEach(t);
    EscapeEachSafe(t);
  }

  /** The browser's reading of the five entities back into characters; any other text is
      read as written. */
  function Unescape(s: string): string
    decreases |s|
  {
    if |s| == 0 then ""
    else if HasAt(s, 0, "&amp;") then "&" + Unescape(s[5..])
    else if HasAt(s, 0, "&lt;") then "<" + Unescape(s[4..])
    else if HasAt(s, 0, "&gt;") then ">" + Unescape(s[4..])
    else if HasAt(s, 0, "&quot;") then "\"" + Unescape(s[6..])
    else if HasAt(s, 0, "&#039;") then "'" + Unescape(s[6..])
    else [s[0]] + Unescape(s[1..])
  }

  /** A differing character rules a prefix out. */
  lemma NotAt(s: string, i: int, p: string, j: int)
    requires 0 <= j < |p| && 0 <= i + j < |s| && s[i + j] != p[j]
    ensures !HasAt(s, i, p)
  {
  }

  lemma UnescapeStep(c: char, t: string)
    ensures Unescape(EscapeChar(c) + t) == [c] + Unescape(t)
  {
    var e := EscapeChar(c);
    var s := e + t;
    assert s[0..|e|] == e && s[|e|..] == t;
    if c == '&' {
    } else if c == '<' {
      NotAt(s, 0, "&amp;", 1);
    } else if c == '>' {
      NotAt(s, 0, "&amp;", 1);
      NotAt(s, 0, "&lt;", 1);
    } else if c == '"' {
      NotAt(s, 0, "&amp;", 1);
      NotAt(s, 0, "&lt;", 1);
      NotAt(s, 0, "&gt;", 1);
    } else if c == '\'' {
      NotAt(s, 0, "&amp;", 1);
      NotAt(s, 0, "&lt;", 1);
      NotAt(s, 0, "&gt;", 1);
      NotAt(s, 0, "&quot;", 1);
    } else {
      assert s[0] == c;
      NotAt(s, 0, "&amp;", 0);
      NotAt(s, 0, "&lt;", 0);
      NotAt(s, 0, "&gt;", 0);
      NotAt(s, 0, "&quot;", 0);
      NotAt(s, 0, "&#039;", 0);
      assert s[1..] == t;
    }
  }

  /** Escaping loses nothing: reading the escaped text back gives the original. */
  lemma {:induction false} EscapeRoundTrip(s: string)
    ensures Unescape(EscapeEach(s)) == s
  {
    if |s| > 0 {
      UnescapeStep(s[0], EscapeEach(s[1..]));
      EscapeRoundTrip(s[1..]);
    }
  }

  /** The page shows exactly the text it was given: unescaping escapeHtml's output returns the
      input, with null read as "". */
  lemma EscapeHtmlRoundTrip(s: Option<string>)
    ensures Unescape(EscapeHtml(s)) == if s.None? then "" else s.value
  {
    var t := if s.None? then "" else s.value;
    EscapeHtmlIsEscapeEach(t);
    EscapeRoundTrip(t);
  }

  /** escapeAttr: escapeHtml, then '"' replaced once more, which finds none left. */
  function EscapeAttr(s: Option<string>): (r: string)
    ensures r == EscapeHtml(s)
  {
    EscapeHtmlSafe(s);
    var h := EscapeHtml(s);
    assert '"' !in h by {
      forall i | 0 <= i < |h| ensures h[i] != '"' {
      }
    }
    ReplaceAbsent(h, '"', "&quot;");
    ReplaceChar(h, '"', "&quot;")
  }

  /** The script state the pager reads. */
  datatype PagerState = PagerState(page: int, total: int, pageSizeHint: int, lastResponseItemsCount: int)

  datatype PagerButtons = PagerButtons(canPrev: bool, canNext: bool)

  /** Math.ceil(a / b) for a positive divisor. */
  function CeilDiv(a: int, b: int): (r: int)
    requires b > 0
    ensures (r - 1) * b < a <= r * b
  {
    var q := a / b;
    if q * b == a then q else
      assert q * b < a < (q + 1) * b;
      q + 1
  }

  /** updatePager: previous when past page 1; with a known total and a non-empty last page,
      next until the last page max(1, ceil(total / itemsPerPage)); otherwise next exactly
      when the last page had items. */
  function UpdatePager(st: PagerState): (b: PagerButtons)
    ensures b.canPrev <==> st.page > 1
    ensures !(st.total > 0 && st.lastResponseItemsCount > 0) ==> (b.canNext <==> st.lastResponseItemsCount > 0)
  {
    var canPrev := st.page > 1;
    if st.total > 0 && st.lastResponseItemsCount > 0 then
      var perPage := st.lastResponseItemsCount;
      var lastPage := var c := CeilDiv(st.total, perPage); if c < 1 then 1 else c;
      PagerButtons(canPrev, st.page < lastPage)
    else PagerButtons(canPrev, st.lastResponseItemsCount > 0)
  }

  lemma BelowCeil(p: int, a: int, b: int)
    requires b > 0 && a > 0
    ensures p < CeilDiv(a, b) <==> p * b < a
  {
    var r := CeilDiv(a, b);
    if p < r {
      assert p <= r - 1;
      assert p * b <= (r - 1) * b;
    } else {
      assert p >= r;
      assert p * b >= r * b;
    }
  }

  /** With a known total and a non-empty last page, next is enabled exactly when the pages up
      to this one, at the last page's size, do not yet cover the total. */
  lemma NextWhileItemsRemain(st: PagerState)
    requires st.total > 0 && st.lastResponseItemsCount > 0
    ensures UpdatePager(st).canNext <==> st.page * st.lastResponseItemsCount < st.total
  {
    BelowCeil(st.page, st.total, st.lastResponseItemsCount);
  }

  /** The pager as evidently intended: with a known total, next stays enabled while the pages
      up to this one, at the page size, do not cover the total, so a short last page does
      not shrink the page count. Otherwise next follows whether the last page had items. */
  function UpdatePagerByPageSize(st: PagerState): (b: PagerButtons)
    requires st.pageSizeHint > 0
    ensures b.canPrev <==> st.page > 1
    ensures st.total > 0 && st.lastResponseItemsCount > 0 ==>
      (b.canNext <==> st.page * st.pageSizeHint < st.total)
    ensures !(st.total > 0 && st.lastResponseItemsCount > 0) ==> (b.canNext <==> st.lastResponseItemsCount > 0)
  {
    var canPrev := st.page > 1;
    if st.total > 0 && st.lastResponseItemsCount > 0 then
      var lastPage := var c := CeilDiv(st.total, st.pageSizeHint); if c < 1 then 1 else c;
      BelowCeil(st.page, st.total, st.pageSizeHint);
      PagerButtons(canPrev, st.page < lastPage)
    else PagerButtons(canPrev, st.lastResponseItemsCount > 0)
  }

  /** On a short last page the script still offers a next page: with 45 results at 20 a page,
      page 3 shows the last 5, and dividing 45 by those 5 gives 9 pages. */
  lemma ShortLastPageOffersNext()
    ensures var st := PagerState(3, 45, 20, 5);
      && st.page * st.pageSizeHint >= st.total
      && UpdatePager(st).canNext
      && !UpdatePagerByPageSize(st).canNext
  {
    NextWhileItemsRemain(PagerState(3, 45, 20, 5));
  }

  /** A favourite the page indexes: present and with an id. */
  predicate IsIndexed(f: Option<Favorite>) {
    f.Some? && f.value.id.Some?
  }

  /** loadFavorites: the favourites map rebuilt from the list response, setting each entry
      with an id under that id in order; a response that is not an array gives an empty map. */
  function FavoritesIndex(response: Option<seq<Option<Favorite>>>): (m: map<int, Favorite>)
    ensures response.None? ==> m == map[]
    ensures forall k :: k in m ==> m[k].id == Some(k)
  {
    if response.None? then map[] else IndexAll(response.value)
  }

  function IndexAll(fs: seq<Option<Favorite>>): (m: map<int, Favorite>)
    ensures forall k :: k in m ==> m[k].id == Some(k)
    decreases |fs|
  {
    if |fs| == 0 then map[]
    else
      var m := IndexAll(fs[..|fs| - 1]);
      var f := fs[|fs| - 1];
      if IsIndexed(f) then m[f.value.id.value := f.value] else m
  }

  /** The last entry of `fs` with id `k`, looking from the front and preferring a later match. */
  function LastWithId(fs: seq<Option<Favorite>>, k: int): Option<Favorite> {
    if |fs| == 0 then None
    else
      var later := LastWithId(fs[1..], k);
      if later.Some? then later
      else if IsIndexed(fs[0]) && fs[0].value.id.value == k then fs[0]
      else None
  }

  lemma {:induction false} LastWithIdAppend(fs: seq<Option<Favorite>>, f: Option<Favorite>, k: int)
    ensures LastWithId(fs + [f], k) ==
      if IsIndexed(f) && f.value.id.value == k then f else LastWithId(fs, k)
  {
    if |fs| == 0 {
      assert [f][1..] == [];
    } else {
      assert (fs + [f])[1..] == fs[1..] + [f];
      LastWithIdAppend(fs[1..], f, k);
    }
  }

  /** The last duplicate wins: an id is in the map exactly when some entry with an id has it,
      and it maps to the last such entry. */
  lemma {:induction false} IndexIsLastWins(fs: seq<Option<Favorite>>, k: int)
    ensures k in IndexAll(fs) <==> LastWithId(fs, k).Some?
    ensures k in IndexAll(fs) ==> IndexAll(fs)[k] == LastWithId(fs, k).value
    decreases |fs|
  {
    if |fs| > 0 {
      var init, f := fs[..|fs| - 1], fs[|fs| - 1];
      assert fs == init + [f];
      LastWithIdAppend(init, f, k);
      IndexIsLastWins(init, k);
    }
  }

  lemma {:induction false} LastWithIdFound(fs: seq<Option<Favorite>>, k: int)
    requires LastWithId(fs, k).Some?
    ensures LastWithId(fs, k) in fs
    ensures LastWithId(fs, k).value.id == Some(k)
  {
    if LastWithId(fs[1..], k).Some? {
      LastWithIdFound(fs[1..], k);
      assert LastWithId(fs[1..], k) in fs[1..];
    }
  }

  lemma {:induction false} LastWithIdPresent(fs: seq<Option<Favorite>>, k: int, i: int)
    requires 0 <= i < |fs| && IsIndexed(fs[i]) && fs[i].value.id.value == k
    ensures LastWithId(fs, k).Some?
  {
    if i > 0 {
      assert fs[1..][i - 1] == fs[i];
      LastWithIdPresent(fs[1..], k, i - 1);
    }
  }

  /** The list response as the script receives it: an array with no null entries. */
  function AsResponse(out: seq<Favorite>): (fs: seq<Option<Favorite>>)
    ensures |fs| == |out| && forall i :: 0 <= i < |fs| ==> fs[i] == Some(out[i])
  {
    seq(|out|, i requires 0 <= i < |out| => Some(out[i]))
  }

  /** Rebuilding the page's favourites map from a listing of a bucket gives back the bucket:
      the listing holds each stored favourite once, under its own id. */
  lemma IndexOfListing(out: seq<Favorite>, items: map<int, Favorite>)
    requires FavoritesStore.FiledById(items)
    requires FavoritesStore.HoldsEachOnce(out, items)
    ensures FavoritesIndex(Some(AsResponse(out))) == items
  {
    var fs := AsResponse(out);
    var m := IndexAll(fs);
    forall k ensures (k in m <==> k in items) && (k in m ==> m[k] == items[k]) {
      IndexIsLastWins(fs, k);
      if k in items {
        var f := items[k];
        assert FavoritesStore.IsStored(f, items);
        assert multiset(out)[f] == 1;
        assert f in out;
        var i :| 0 <= i < |out| && out[i] == f;
        LastWithIdPresent(fs, k, i);
      }
      if LastWithId(fs, k).Some? {
        LastWithIdFound(fs, k);
        var g := LastWithId(fs, k).value;
        var i :| 0 <= i < |fs| && fs[i] == Some(g);
        assert out[i] == g;
        assert multiset(out)[g] > 0;
        assert FavoritesStore.IsStored(g, items);
      }
    }
    assert m == items;
  }
}

=== FILE: movie_service.dfy ===
/** MovieService: search and details behind two separate 60-second caches. Each lookup checks
    its input first, serves a live entry without asking upstream, and otherwise asks upstream
    once and keeps a successful answer for a minute. Upstream (MovieApiClient) is a function
    parameter; each operation reports the requests it made, so "no upstream call" is `[]`. */
module MovieService {
  import opened Wrappers
  import opened Errors
  import opened Text
  import opened Dto
  import ApiClient

  const MinQueryLength: nat := 2
  const CacheTtlMs: int := 60_000

  /** A cached value and the time from which it is stale. */
  datatype CacheEntry<V> = CacheEntry(value: V, expiresAt: int)

  type Cache<K, V> = map<K, CacheEntry<V>>

  /** isExpired: an absent entry, or one whose expiry is not after `now`. */
  predicate IsExpired<V>(entry: Option<CacheEntry<V>>, now: int)
    ensures !IsExpired(entry, now) <==> entry.Some? && now < entry.value.expiresAt
  {
    entry.None? || entry.value.expiresAt <= now
  }

  function Lookup<K, V>(cache: Cache<K, V>, key: K): (r: Option<CacheEntry<V>>)
    ensures r.Some? <==> key in cache
    ensures r.Some? ==> r.value == cache[key]
  {
    if key in cache then Some(cache[key]) else None
  }

  /** The answer of a cached lookup, the cache afterwards, and the upstream requests made. */
  datatype Served<K, V, A> = Served(result: Result<V, Error>, cache: Cache<K, V>, calls: seq<A>)

  /** The get-or-compute step both caches share: a live entry is returned as stored with no
      request; otherwise upstream is asked once with `request`, a success is stored until
      `now + 60000` and returned, and a failure is passed on with nothing stored. */
  function GetOrFetch<K, V, A>(cache: Cache<K, V>, key: K, request: A, now: int, upstream: A -> Result<V, Error>): (s: Served<K, V, A>)
    ensures !IsExpired(Lookup(cache, key), now) ==> s == Served(Success(cache[key].value), cache, [])
    ensures IsExpired(Lookup(cache, key), now) ==>
      && s.calls == [request]
      && s.result == upstream(request)
      && (s.result.Success? ==> s.cache == cache[key := CacheEntry(s.result.value, now + CacheTtlMs)])
      && (s.result.Failure? ==> s.cache == cache)
  {
    var cached := Lookup(cache, key);
    if !IsExpired(cached, now) then Served(Success(cached.value.value), cache, [])
    else
      var result := upstream(request);
      if result.Failure? then Served(result, cache, [request])
      else Served(result, cache[key := CacheEntry(result.value, now + CacheTtlMs)], [request])
  }

  /** A lookup never makes more than one request, and only ever the one it was given. It
      changes at most the entry under its own key, and after a success that entry is live
      and holds the answer. */
  lemma GetOrFetchFootprint<K, V, A>(cache: Cache<K, V>, key: K, request: A, now: int, upstream: A -> Result<V, Error>)
    ensures
      var s := GetOrFetch(cache, key, request, now, upstream);
      && (s.calls == [] || s.calls == [request])
      && (forall k :: k != key ==> Lookup(s.cache, k) == Lookup(cache, k))
      && (s.result.Success? ==> key in s.cache && s.cache[key].value == s.result.value)
      && (s.result.Success? ==> !IsExpired(Lookup(s.cache, key), now))
  {
    var s := GetOrFetch(cache, key, request, now, upstream);
    if s.result.Success? {
      if IsExpired(Lookup(cache, key), now) {
        assert s.cache[key].expiresAt == now + CacheTtlMs;
      } else {
        assert s.cache[key].expiresAt > now;
      }
      assert Lookup(s.cache, key) == Some(s.cache[key]);
    }
  }

  /** Asking again for the same key before a successful answer lapses is served from the cache:
      the same answer, no request, and the cache unchanged. */
  lemma RepeatWithinTtlHits<K, V, A>(cache: Cache<K, V>, key: K, request: A, again: A, now: int, later: int, upstream: A -> Result<V, Error>)
    requires GetOrFetch(cache, key, request, now, upstream).result.Success?
    requires now <= later
    requires GetOrFetch(cache, key, request, now, upstream).calls == [request] ==> later < now + CacheTtlMs
    requires GetOrFetch(cache, key, request, now, upstream).calls == [] ==> later < cache[key].expiresAt
    ensures
      var first := GetOrFetch(cache, key, request, now, upstream);
      GetOrFetch(first.cache, key, again, later, upstream) == Served(first.result, first.cache, [])
  {
    var first := GetOrFetch(cache, key, request, now, upstream);
    if IsExpired(Lookup(cache, key), now) {
      assert first.cache[key] == CacheEntry(first.result.value, now + CacheTtlMs);
    } else {
      assert first.cache == cache;
    }
  }

  /** Once a freshly fetched answer has been kept for 60 seconds, the next lookup asks upstream
      again, exactly once. */
  lemma ExpiredAfterTtl<K, V, A>(cache: Cache<K, V>, key: K, request: A, again: A, now: int, later: int, upstream: A -> Result<V, Error>)
    requires GetOrFetch(cache, key, request, now, upstream).calls == [request]
    requires GetOrFetch(cache, key, request, now, upstream).result.Success?
    requires later >= now + CacheTtlMs
    ensures
      var first := GetOrFetch(cache, key, request, now, upstream);
      GetOrFetch(first.cache, key, again, later, upstream).calls == [again]
  {
  }

  /** A failed fetch is not remembered: the next lookup asks upstream again. */
  lemma FailureNotCached<K, V, A>(cache: Cache<K, V>, key: K, request: A, again: A, now: int, later: int, upstream: A -> Result<V, Error>)
    requires GetOrFetch(cache, key, request, now, upstream).result.Failure?
    requires now <= later
    ensures
      var first := GetOrFetch(cache, key, request, now, upstream);
      && first.calls == [request]
      && first.cache == cache
      && GetOrFetch(first.cache, key, again, later, upstream).calls == [again]
  {
  }

  /** The two caches; they share no entries. */
  datatype Caches = Caches(
    search: Cache<string, PageResponse<MovieListItem>>,
    details: Cache<int, MovieDetails>)

  /** What a service call returned, the caches afterwards, and the requests made to each
      upstream operation: searches as (trimmed query, page), details as the id. */
  datatype Outcome<V> = Outcome(
    result: Result<V, Error>,
    caches: Caches,
    searchCalls: seq<(string, int)>,
    detailsCalls: seq<int>)

  type SearchUpstream = ((string, int)) -> Result<PageResponse<MovieListItem>, Error>
  type DetailsUpstream = int -> Result<MovieDetails, Error>

  /** The query search works with: trimmed, with null read as the empty string. */
  function TrimmedQuery(query: Option<string>): (q: string)
    ensures query.None? ==> q == ""
    ensures query.Some? ==> q == Trim(query.value)
  {
    if query.None? then "" else Trim(query.value)
  }

  /** search's refusal: nothing but whitespace, or a String.length below two once trimmed. */
  predicate IsShortQuery(query: Option<string>) {
    var q := TrimmedQuery(query);
    !HasText(q) || Utf16Length(q) < MinQueryLength
  }

  /** The page actually used: pages below 1 read as 1. */
  function EffectivePage(page: int): (p: int)
    ensures p >= 1
    ensures page >= 1 ==> p == page
    ensures page < 1 ==> p == 1
  {
    if page < 1 then 1 else page
  }

  /** The search cache key: the lower-cased trimmed query, "::", and the page in decimal.
      Everything after the query's own characters is the separator and digits, which is what
      lets the key be read back. */
  function SearchKey(q: string, p: int): (k: string)
    ensures |k| > |q| + 2
    ensures k[..|q|] == ToLower(q) && k[|q|..|q| + 2] == "::"
    ensures p >= 0 ==> forall i :: |q| + 2 <= i < |k| ==> IsDigit(k[i])
  {
    ToLower(q) + "::" + IntToString(p)
  }

  /** search: refuse a short query with no request and no cache change; otherwise look up
      the key for the trimmed query and effective page, asking upstream with the trimmed query
      as written (not lower-cased). The details cache is never touched. */
  function Search(caches: Caches, query: Option<string>, page: int, now: int, upstream: SearchUpstream): (o: Outcome<PageResponse<MovieListItem>>)
    ensures IsShortQuery(query) ==> o == Outcome(Failure(BadRequest(ShortQuery)), caches, [], [])
    ensures !IsShortQuery(query) ==>
      var s := GetOrFetch(caches.search, SearchKey(TrimmedQuery(query), EffectivePage(page)),
                          (TrimmedQuery(query), EffectivePage(page)), now, upstream);
      o == Outcome(s.result, caches.(search := s.cache), s.calls, [])
    ensures o.caches.details == caches.details && o.detailsCalls == []
  {
    var q := TrimmedQuery(query);
    if !HasText(q) || Utf16Length(q) < MinQueryLength then
      Outcome(Failure(BadRequest(ShortQuery)), caches, [], [])
    else
      var p := EffectivePage(page);
      var s := GetOrFetch(caches.search, SearchKey(q, p), (q, p), now, upstream);
      Outcome(s.result, caches.(search := s.cache), s.calls, [])
  }

  /** getDetails: refuse a non-positive id with no request and no cache change; otherwise look
      the id up in the details cache. The search cache is never touched. */
  function GetDetails(caches: Caches, id: int, now: int, upstream: DetailsUpstream): (o: Outcome<MovieDetails>)
    ensures id <= 0 ==> o == Outcome(Failure(BadRequest(BadMovieId)), caches, [], [])
    ensures id > 0 ==>
      var s := GetOrFetch(caches.details, id, id, now, upstream);
      o == Outcome(s.result, caches.(details := s.cache), [], s.calls)
    ensures o.caches.search == caches.search && o.searchCalls == []
  {
    if id <= 0 then Outcome(Failure(BadRequest(BadMovieId)), caches, [], [])
    else
      var s := GetOrFetch(caches.details, id, id, now, upstream);
      Outcome(s.result, caches.(details := s.cache), [], s.calls)
  }

  /** The characters after the last ':' of a string (all of it when there is none). */
  function AfterLastColon(s: string): string {
    if |s| == 0 then ""
    else if s[|s| - 1] == ':' then ""
    else AfterLastColon(s[..|s| - 1]) + [s[|s| - 1]]
  }

  /** A colon-free tail is read back exactly from behind the colon that precedes it. */
  lemma {:induction false} AfterLastColonOf(a: string, d: string)
    requires forall i :: 0 <= i < |d| ==> d[i] != ':'
    ensures AfterLastColon(a + ":" + d) == d
  {
    var s := a + ":" + d;
    if |d| == 0 {
      assert s == a + ":";
    } else {
      var init := d[..|d| - 1];
      assert s[..|s| - 1] == a + ":" + init;
      assert s[|s| - 1] == d[|d| - 1];
      AfterLastColonOf(a, init);
      assert d == init + [d[|d| - 1]];
    }
  }

  /** The cache key determines the lower-cased query and the page: two searches share an
      entry only when their lower-cased trimmed queries and their pages agree. The page is
      read back from the digits after the last ':'. */
  lemma SearchKeyInjective(q1: string, p1: int, q2: string, p2: int)
    requires p1 >= 1 && p2 >= 1
    requires SearchKey(q1, p1) == SearchKey(q2, p2)
    ensures ToLower(q1) == ToLower(q2) && p1 == p2
  {
    var k := SearchKey(q1, p1);
    var d1, d2 := IntToString(p1), IntToString(p2);
    assert k == (ToLower(q1) + ":") + ":" + d1;
    assert k == (ToLower(q2) + ":") + ":" + d2;
    forall i | 0 <= i < |d1| ensures d1[i] != ':' {
      assert IsDigit(d1[i]);
    }
    forall i | 0 <= i < |d2| ensures d2[i] != ':' {
      assert IsDigit(d2[i]);
    }
    AfterLastColonOf(ToLower(q1) + ":", d1);
    AfterLastColonOf(ToLower(q2) + ":", d2);
    var n := |k|;
    assert ToLower(q1) == k[..n - |d1| - 2] == ToLower(q2);
    NatToStringInjective(p1, p2);
  }

  /** Two searches use the same cache entry exactly when their trimmed queries agree up to
      case and their effective pages agree. */
  lemma SameEntryIff(query1: Option<string>, page1: int, query2: Option<string>, page2: int)
    ensures
      SearchKey(TrimmedQuery(query1), EffectivePage(page1)) == SearchKey(TrimmedQuery(query2), EffectivePage(page2))
      <==>
      ToLower(TrimmedQuery(query1)) == ToLower(TrimmedQuery(query2)) && EffectivePage(page1) == EffectivePage(page2)
  {
    var q1, p1, q2, p2 := TrimmedQuery(query1), EffectivePage(page1), TrimmedQuery(query2), EffectivePage(page2);
    if SearchKey(q1, p1) == SearchKey(q2, p2) {
      SearchKeyInjective(q1, p1, q2, p2);
    }
  }

  /** A search that missed the cache and was answered is served from the cache when repeated
      within the minute, even with different case, surrounding whitespace or an equivalent
      page: the same page, no request. */
  lemma SearchRepeatHits(caches: Caches, query: Option<string>, page: int, again: Option<string>, page2: int,
                         now: int, later: int, upstream: SearchUpstream)
    requires !IsShortQuery(query) && !IsShortQuery(again)
    requires ToLower(TrimmedQuery(query)) == ToLower(TrimmedQuery(again))
    requires EffectivePage(page) == EffectivePage(page2)
    requires IsExpired(Lookup(caches.search, SearchKey(TrimmedQuery(query), EffectivePage(page))), now)
    requires upstream((TrimmedQuery(query), EffectivePage(page))).Success?
    requires now <= later < now + CacheTtlMs
    ensures
      var first := Search(caches, query, page, now, upstream);
      Search(first.caches, again, page2, later, upstream) == Outcome(first.result, first.caches, [], [])
  {
    var q, p := TrimmedQuery(query), EffectivePage(page);
    var q2 := TrimmedQuery(again);
    assert SearchKey(q, p) == SearchKey(q2, p);
    RepeatWithinTtlHits(caches.search, SearchKey(q, p), (q, p), (q2, p), now, later, upstream);
  }

  /** One character outside the Basic Multilingual Plane is two UTF-16 code units, so it is
      long enough to be searched for. */
  lemma SurrogatePairQueryAccepted(q: string)
    requires q == "\U{1F600}"
    ensures !IsShortQuery(Some(q))
  {
    assert |q| == 1 && !IsTrimmable(q[0]) && !IsWhitespace(q[0]);
    assert TrimStart(q) == q && TrimEnd(q) == q;
    assert Utf16Length(q) == 2;
  }

  /** Whatever the service accepts, the client's own check accepts too, unchanged: the trimmed
      query is already trimmed and already long enough. */
  lemma ServiceCheckImpliesClientCheck(query: Option<string>, page: int)
    requires !IsShortQuery(query)
    ensures ApiClient.SearchRequest(Some(TrimmedQuery(query)), EffectivePage(page))
      == Success((TrimmedQuery(query), EffectivePage(page)))
  {
    var q := TrimmedQuery(query);
    TrimIdempotent(if query.None? then "" else query.value);
  }
}

=== FILE: sorting.dfy ===
/** A stable insertion sort by a comparator, with the facts the listing and the cast
    ordering need: the result is a sorted permutation, elements the comparator cannot
    tell apart keep their relative order, and a sorted permutation is unique when the
    comparator tells every pair of distinct elements apart. */
module Sorting {

  /** `le` is a comparator's "compare(a, b) <= 0": total and transitive. */
  ghost predicate TotalPreorder<T(!new)>(le: (T, T) -> bool) {
    && (forall a, b :: le(a, b) || le(b, a))
    && (forall a, b, c :: le(a, b) && le(b, c) ==> le(a, c))
  }

  predicate Sorted<T>(s: seq<T>, le: (T, T) -> bool) {
    forall i, j :: 0 <= i < j < |s| ==> le(s[i], s[j])
  }

  /** Places `x` after every element of `s` that does not compare greater than it. */
  function Insert<T>(x: T, s: seq<T>, le: (T, T) -> bool): (r: seq<T>)
    ensures multiset(r) == multiset(s) + multiset{x}
    ensures |r| == |s| + 1
  {
    if |s| == 0 then [x]
    else if !le(s[0], x) then [x] + s
    else
      assert s == [s[0]] + s[1..];
      [s[0]] + Insert(x, s[1..], le)
  }

  /** Inserts the elements one by one, first to last, so later ones go after earlier equals. */
  function SortBy<T>(s: seq<T>, le: (T, T) -> bool): (r: seq<T>)
    ensures multiset(r) == multiset(s)
    ensures |r| == |s|
  {
    if |s| == 0 then []
    else
      assert s == s[..|s| - 1] + [s[|s| - 1]];
      Insert(s[|s| - 1], SortBy(s[..|s| - 1], le), le)
  }

  /** Putting in front an element no greater than any other keeps a sequence sorted. */
  lemma SortedCons<T>(x: T, s: seq<T>, le: (T, T) -> bool)
    requires Sorted(s, le)
    requires forall i :: 0 <= i < |s| ==> le(x, s[i])
    ensures Sorted([x] + s, le)
  {
    var r := [x] + s;
    forall i, j | 0 <= i < j < |r| ensures le(r[i], r[j]) {
      if i == 0 {
        assert r[j] == s[j - 1];
      } else {
        assert r[i] == s[i - 1] && r[j] == s[j - 1];
      }
    }
  }

  lemma {:induction false} InsertSorted<T(!new)>(x: T, s: seq<T>, le: (T, T) -> bool)
    requires TotalPreorder(le) && Sorted(s, le)
    ensures Sorted(Insert(x, s, le), le)
  {
    if |s| == 0 {
    } else if !le(s[0], x) {
      assert le(x, s[0]);
      forall i | 0 <= i < |s| ensures le(x, s[i]) {
        if i > 0 {
          assert le(s[0], s[i]);
        }
      }
      SortedCons(x, s, le);
    } else {
      var t := Insert(x, s[1..], le);
      InsertSorted(x, s[1..], le);
      forall i | 0 <= i < |t| ensures le(s[0], t[i]) {
        var e := t[i];
        assert e in multiset(t);
        if e != x {
          assert e in multiset(s[1..]);
          var k :| 0 <= k < |s[1..]| && s[1..][k] == e;
          assert le(s[0], s[k + 1]);
        }
      }
      SortedCons(s[0], t, le);
    }
  }

  /** The sort produces a sorted sequence whenever the comparator is a total preorder. */
  lemma {:induction false} SortBySorted<T(!new)>(s: seq<T>, le: (T, T) -> bool)
    requires TotalPreorder(le)
    ensures Sorted(SortBy(s, le), le)
  {
    if |s| > 0 {
      SortBySorted(s[..|s| - 1], le);
      InsertSorted(s[|s| - 1], SortBy(s[..|s| - 1], le), le);
    }
  }

  /** `a` and `b` compare equal. */
  predicate Tie<T>(a: T, b: T, le: (T, T) -> bool) {
    le(a, b) && le(b, a)
  }

  /** The elements of `s` that compare equal to `x`, in their order in `s`. */
  function Tied<T>(s: seq<T>, x: T, le: (T, T) -> bool): seq<T> {
    if |s| == 0 then []
    else (if Tie(s[0], x, le) then [s[0]] else []) + Tied(s[1..], x, le)
  }

  lemma {:induction false} TiedAppend<T>(a: seq<T>, b: seq<T>, x: T, le: (T, T) -> bool)
    ensures Tied(a + b, x, le) == Tied(a, x, le) + Tied(b, x, le)
  {
    if |a| == 0 {
      assert a + b == b;
    } else {
      var head := if Tie(a[0], x, le) then [a[0]] else [];
      assert (a + b)[0] == a[0] && (a + b)[1..] == a[1..] + b;
      assert Tied(a + b, x, le) == head + Tied(a[1..] + b, x, le);
      TiedAppend(a[1..], b, x, le);
    }
  }

  lemma {:induction false} TiedNone<T>(s: seq<T>, x: T, le: (T, T) -> bool)
    requires forall i :: 0 <= i < |s| ==> !Tie(s[i], x, le)
    ensures Tied(s, x, le) == []
  {
    if |s| > 0 {
      TiedNone(s[1..], x, le);
    }
  }

  /** When `y` goes in front of a sorted `s`, no element of `s` ties with anything `y` ties with. */
  lemma NothingTiesBelowFront<T(!new)>(y: T, s: seq<T>, x: T, le: (T, T) -> bool)
    requires TotalPreorder(le) && Sorted(s, le)
    requires |s| > 0 && !le(s[0], y) && Tie(y, x, le)
    ensures Tied(s, x, le) == []
  {
    forall i | 0 <= i < |s| ensures !Tie(s[i], x, le) {
      assert le(s[0], s[i]) by { if i > 0 { assert le(s[0], s[i]); } }
      assert !le(s[i], x);
    }
    TiedNone(s, x, le);
  }

  /** The tied elements of `[y] + s`, when `y` goes in front of `s`. */
  lemma InsertTiedFront<T(!new)>(y: T, s: seq<T>, x: T, le: (T, T) -> bool)
    requires TotalPreorder(le) && Sorted(s, le)
    requires |s| > 0 && !le(s[0], y)
    ensures Tied([y] + s, x, le) == Tied(s, x, le) + (if Tie(y, x, le) then [y] else [])
  {
    var r := [y] + s;
    assert r[0] == y && r[1..] == s;
    if Tie(y, x, le) {
      NothingTiesBelowFront(y, s, x, le);
    }
  }

  lemma {:induction false} InsertTied<T(!new)>(y: T, s: seq<T>, x: T, le: (T, T) -> bool)
    requires TotalPreorder(le) && Sorted(s, le)
    ensures Tied(Insert(y, s, le), x, le) == Tied(s, x, le) + (if Tie(y, x, le) then [y] else [])
  {
    if |s| == 0 {
      assert Tied([y], x, le) == (if Tie(y, x, le) then [y] else []) + Tied([], x, le);
    } else if !le(s[0], y) {
      InsertTiedFront(y, s, x, le);
    } else {
      var rest := Insert(y, s[1..], le);
      var r := [s[0]] + rest;
      assert r[0] == s[0] && r[1..] == rest;
      InsertTied(y, s[1..], x, le);
    }
  }

  lemma TiedSingleton<T>(y: T, x: T, le: (T, T) -> bool)
    ensures Tied([y], x, le) == if Tie(y, x, le) then [y] else []
  {
    assert [y][1..] == [];
  }

  lemma SortedTail<T>(s: seq<T>, le: (T, T) -> bool)
    requires Sorted(s, le) && |s| > 0
    ensures Sorted(s[1..], le)
  {
    forall i, j | 0 <= i < j < |s[1..]| ensures le(s[1..][i], s[1..][j]) {
      assert s[1..][i] == s[i + 1] && s[1..][j] == s[j + 1];
    }
  }

  /** Stability: the elements that compare equal to any `x` come out in their input order. */
  lemma {:induction false} SortByStable<T(!new)>(s: seq<T>, x: T, le: (T, T) -> bool)
    requires TotalPreorder(le)
    ensures Tied(SortBy(s, le), x, le) == Tied(s, x, le)
  {
    if |s| > 0 {
      var init, last := s[..|s| - 1], s[|s| - 1];
      var tail := if Tie(last, x, le) then [last] else [];
      assert Tied(SortBy(s, le), x, le) == Tied(SortBy(init, le), x, le) + tail by {
        SortBySorted(init, le);
        InsertTied(last, SortBy(init, le), x, le);
      }
      SortByStable(init, x, le);
      assert Tied(s, x, le) == Tied(init, x, le) + tail by {
        assert s == init + [last];
        TiedAppend(init, [last], x, le);
        TiedSingleton(last, x, le);
      }
    }
  }

  /** The fronts of two sorted permutations of the same elements compare equal. */
  lemma FrontsTie<T(!new)>(a: seq<T>, b: seq<T>, le: (T, T) -> bool)
    requires TotalPreorder(le)
    requires Sorted(a, le) && Sorted(b, le) && multiset(a) == multiset(b) && |a| > 0 && |b| > 0
    ensures Tie(a[0], b[0], le)
  {
    assert a[0] in multiset(b) && b[0] in multiset(a);
    var j :| 0 <= j < |b| && b[j] == a[0];
    var i :| 0 <= i < |a| && a[i] == b[0];
    assert le(b[0], a[0]) by { if j > 0 { assert le(b[0], b[j]); } }
    assert le(a[0], b[0]) by { if i > 0 { assert le(a[0], a[i]); } }
  }

  /** Taking the same front off two permutations of each other leaves permutations. */
  lemma TailsPermuted<T>(a: seq<T>, b: seq<T>)
    requires multiset(a) == multiset(b) && |a| > 0 && |b| > 0 && a[0] == b[0]
    ensures multiset(a[1..]) == multiset(b[1..])
  {
    assert a == [a[0]] + a[1..] && b == [b[0]] + b[1..];
    assert multiset(a) == multiset{a[0]} + multiset(a[1..]);
    assert multiset(b) == multiset{a[0]} + multiset(b[1..]);
    assert multiset(a[1..]) == multiset(a) - multiset{a[0]};
    assert multiset(b[1..]) == multiset(b) - multiset{a[0]};
  }

  /** Two sorted permutations of the same elements are equal when the comparator ties no
      two distinct elements: the sorted order is fully determined. */
  lemma {:induction false} SortedUnique<T(!new)>(a: seq<T>, b: seq<T>, le: (T, T) -> bool)
    requires TotalPreorder(le)
    requires Sorted(a, le) && Sorted(b, le) && multiset(a) == multiset(b)
    requires forall x, y :: x in a && y in a && Tie(x, y, le) ==> x == y
    ensures a == b
  {
    assert |a| == |multiset(a)| == |multiset(b)| == |b|;
    if |a| > 0 {
      FrontsTie(a, b, le);
      assert b[0] in multiset(a);
      assert b[0] in a && a[0] in a;
      assert a[0] == b[0];
      TailsPermuted(a, b);
      SortedTail(a, le);
      SortedTail(b, le);
      forall x, y | x in a[1..] && y in a[1..] && Tie(x, y, le) ensures x == y {
        assert x in a && y in a;
      }
      SortedUnique(a[1..], b[1..], le);
      assert a == [a[0]] + a[1..] && b == [b[0]] + b[1..];
    }
  }
}

=== FILE: text.dfy ===
/** The parts of java.lang.String and StringUtils the services rely on, over `seq<char>`. */
module Text {

  /** Character.isWhitespace: the ASCII controls 9-13 and 28-31, the space, and the
      Unicode space, line and paragraph separators other than the non-breaking ones. */
  predicate IsWhitespace(c: char) {
    var n := c as int;
    || (9 <= n <= 13)
    || (28 <= n <= 32)
    || n == 0x1680
    || (0x2000 <= n <= 0x2006)
    || (0x2008 <= n <= 0x200A)
    || n == 0x2028 || n == 0x2029 || n == 0x205F || n == 0x3000
  }

  /** StringUtils.hasText: some character is not whitespace. String.isBlank is its negation. */
  predicate HasText(s: string) {
    exists i :: 0 <= i < |s| && !IsWhitespace(s[i])
  }

  /** The characters String.trim removes from both ends: everything at or below U+0020. */
  predicate IsTrimmable(c: char) {
    c <= ' '
  }

  /** Drops the leading trimmable characters. */
  function TrimStart(s: string): (r: string)
    ensures |r| <= |s| && r == s[|s| - |r|..]
    ensures forall i :: 0 <= i < |s| - |r| ==> IsTrimmable(s[i])
    ensures |r| > 0 ==> !IsTrimmable(r[0])
  {
    if |s| > 0 && IsTrimmable(s[0]) then TrimStart(s[1..]) else s
  }

  /** Drops the trailing trimmable characters. */
  function TrimEnd(s: string): (r: string)
    ensures |r| <= |s| && r == s[..|r|]
    ensures forall i :: |r| <= i < |s| ==> IsTrimmable(s[i])
    ensures |r| > 0 ==> !IsTrimmable(r[|r| - 1])
  {
    if |s| > 0 && IsTrimmable(s[|s| - 1]) then TrimEnd(s[..|s| - 1]) else s
  }

  /** String.trim. */
  function Trim(s: string): (r: string)
    ensures |r| <= |s|
    ensures |r| > 0 ==> !IsTrimmable(r[0]) && !IsTrimmable(r[|r| - 1])
  {
    TrimEnd(TrimStart(s))
  }

  /** Trimming an already trimmed string changes nothing. */
  lemma TrimIdempotent(s: string)
    ensures Trim(Trim(s)) == Trim(s)
  {
    var t := Trim(s);
    assert TrimStart(t) == t;
  }

  /** The UTF-16 code units a character takes in a Java string: two (a surrogate pair)
      outside the Basic Multilingual Plane, one inside it. */
  function Utf16Units(c: char): (n: nat)
    ensures 1 <= n <= 2
  {
    if c as int >= 0x1_0000 then 2 else 1
  }

  /** String.length: the number of UTF-16 code units, not of characters. */
  function Utf16Length(s: string): (n: nat)
    ensures |s| <= n <= 2 * |s|
  {
    if |s| == 0 then 0 else Utf16Units(s[0]) + Utf16Length(s[1..])
  }

  /** Within the Basic Multilingual Plane, String.length is the number of characters. */
  lemma {:induction false} Utf16LengthOfBmp(s: string)
    requires forall i :: 0 <= i < |s| ==> s[i] as int < 0x1_0000
    ensures Utf16Length(s) == |s|
  {
    if |s| > 0 {
      Utf16LengthOfBmp(s[1..]);
    }
  }

  /** A string is no shorter, in UTF-16 code units, than any of its prefixes. */
  lemma {:induction false} Utf16LengthAtLeastPrefix(a: string, b: string)
    ensures Utf16Length(a + b) >= Utf16Length(a)
  {
    if |a| > 0 {
      assert (a + b)[0] == a[0] && (a + b)[1..] == a[1..] + b;
      Utf16LengthAtLeastPrefix(a[1..], b);
    }
  }

  /** String.substring(0, n) on whole characters: the longest prefix of `s` that fits in `n`
      UTF-16 code units. */
  function Utf16Prefix(s: string, n: nat): (r: string)
    ensures r <= s && Utf16Length(r) <= n
    ensures |r| < |s| ==> n < Utf16Length(r) + Utf16Units(s[|r|])
  {
    if |s| == 0 || n < Utf16Units(s[0]) then []
    else
      var rest := Utf16Prefix(s[1..], n - Utf16Units(s[0]));
      assert ([s[0]] + rest)[0] == s[0] && ([s[0]] + rest)[1..] == rest;
      [s[0]] + rest
  }

  lemma Utf16PrefixCons(s: string, n: nat)
    requires |s| > 0 && Utf16Units(s[0]) <= n
    ensures Utf16Prefix(s, n) == [s[0]] + Utf16Prefix(s[1..], n - Utf16Units(s[0]))
  {
  }

  /** On characters of the Basic Multilingual Plane, String.substring(0, n) takes `n` characters. */
  lemma {:induction false} Utf16PrefixOfBmp(s: string, n: nat)
    requires n <= |s|
    requires forall i :: 0 <= i < n ==> s[i] as int < 0x1_0000
    ensures Utf16Prefix(s, n) == s[..n]
  {
    if n > 0 {
      var t := s[1..];
      forall i | 0 <= i < n - 1 ensures t[i] as int < 0x1_0000 {
        assert t[i] == s[i + 1];
      }
      Utf16PrefixOfBmp(t, n - 1);
      Utf16PrefixCons(s, n);
      assert s[..n] == [s[0]] + t[..n - 1];
    }
  }

  /** Character.toLowerCase restricted to ASCII: 'A'..'Z' become 'a'..'z'. */
  function LowerChar(c: char): char {
    if 'A' <= c <= 'Z' then (c as int + 32) as char else c
  }

  /** String.toLowerCase (ASCII letters only). */
  function ToLower(s: string): (r: string)
    ensures |r| == |s|
    ensures forall i :: 0 <= i < |r| ==> !('A' <= r[i] <= 'Z')
    ensures forall i :: 0 <= i < |r| ==> r[i] == s[i] || ('A' <= s[i] <= 'Z' && r[i] as int == s[i] as int + 32)
  {
    seq(|s|, i requires 0 <= i < |s| => LowerChar(s[i]))
  }

  /** The sign of String.compareTo: lexicographic by character, a proper prefix first. */
  function CompareStrings(a: string, b: string): (r: int)
    ensures -1 <= r <= 1
  {
    if |a| == 0 && |b| == 0 then 0
    else if |a| == 0 then -1
    else if |b| == 0 then 1
    else if a[0] < b[0] then -1
    else if b[0] < a[0] then 1
    else CompareStrings(a[1..], b[1..])
  }

  lemma {:induction false} CompareStringsAntisymmetric(a: string, b: string)
    ensures CompareStrings(a, b) == -CompareStrings(b, a)
  {
    if |a| > 0 && |b| > 0 && a[0] == b[0] {
      CompareStringsAntisymmetric(a[1..], b[1..]);
    }
  }

  lemma {:induction false} CompareStringsZero(a: string, b: string)
    ensures CompareStrings(a, b) == 0 <==> a == b
  {
    if |a| > 0 && |b| > 0 && a[0] == b[0] {
      CompareStringsZero(a[1..], b[1..]);
      assert a == [a[0]] + a[1..] && b == [b[0]] + b[1..];
    }
  }

  lemma {:induction false} CompareStringsTransitive(a: string, b: string, c: string)
    requires CompareStrings(a, b) <= 0 && CompareStrings(b, c) <= 0
    ensures CompareStrings(a, c) <= 0
  {
    if |a| > 0 && |b| > 0 && |c| > 0 && a[0] == b[0] && b[0] == c[0] {
      CompareStringsTransitive(a[1..], b[1..], c[1..]);
    }
  }

  predicate IsDigit(c: char) {
    '0' as int <= c as int <= '9' as int
  }

  function DigitChar(d: nat): (c: char)
    requires d < 10
    ensures IsDigit(c) && c as int - '0' as int == d
  {
    ('0' as int + d) as char
  }

  /** The decimal rendering Java uses when a non-negative number is concatenated to a string. */
  function NatToString(n: nat): (r: string)
    ensures |r| >= 1
    ensures forall i :: 0 <= i < |r| ==> IsDigit(r[i])
    decreases n
  {
    if n < 10 then [DigitChar(n)] else NatToString(n / 10) + [DigitChar(n % 10)]
  }

  /** The value of a string of decimal digits. */
  function DigitsValue(s: string): nat
    requires forall i :: 0 <= i < |s| ==> IsDigit(s[i])
  {
    if |s| == 0 then 0
    else
      assert IsDigit(s[|s| - 1]);
      DigitsValue(s[..|s| - 1]) * 10 + (s[|s| - 1] as int - '0' as int)
  }

  /** Reading back the decimal rendering gives the number. */
  lemma {:induction false} NatToStringRoundTrip(n: nat)
    ensures DigitsValue(NatToString(n)) == n
    decreases n
  {
    if n >= 10 {
      var s := NatToString(n);
      NatToStringRoundTrip(n / 10);
      assert s[..|s| - 1] == NatToString(n / 10);
    }
  }

  /** Distinct numbers have distinct renderings. */
  lemma NatToStringInjective(m: nat, n: nat)
    requires NatToString(m) == NatToString(n)
    ensures m == n
  {
    NatToStringRoundTrip(m);
    NatToStringRoundTrip(n);
  }

  /** The decimal rendering of a Java int, with a leading '-' when negative. */
  function IntToString(i: int): (r: string)
    ensures |r| >= 1
    ensures i >= 0 ==> r == NatToString(i)
    ensures i < 0 ==> r == "-" + NatToString(-i)
  {
    if i < 0 then "-" + NatToString(-i) else NatToString(i)
  }
}

=== FILE: wrappers.dfy ===
/** Optional values (Java null / JavaScript null or undefined) and fallible results. */
module Wrappers {

  /** A value that may be absent: `None` plays the part of `null`. */
  datatype Option<+T> = None | Some(value: T)

  /** The outcome of an operation that may throw: `Failure` carries the exception's kind. */
  datatype Result<+T, +E> = Success(value: T) | Failure(error: E)
}

/** The exception kinds the services raise, as tags. */
module Errors {

  /** Why a request was refused as a client-input fault (BadRequestException). */
  datatype BadRequestReason =
    | NullBody          // "Favorite body must not be null"
    | BadFavoriteId     // "Favorite 'id' must be a positive number"
    | BadParamId        // "Parameter 'id' must be a positive number"
    | LimitExceeded     // "Favorites limit exceeded (200)"
    | ShortQuery        // "Query must contain at least 2 characters"
    | BadMovieId        // "Movie id must be a positive number"

  datatype Error =
    | BadRequest(reason: BadRequestReason)
    | NullArgument      // what Objects.requireNonNull throws on null
    | MissingSession    // IllegalStateException: the session id is missing
    | NotFound          // the upstream answered 404
    | ExternalApi       // any other upstream, network or parsing failure
    | NullDereference   // a NullPointerException nothing catches: a server error
}
